=== FILE: README.md ===
# American ↔ British English translator: a Dafny model

This project models the translator component `components/translator.js`. The
component translates a text between American and British English. It works in
four steps:

- **Dictionaries.** Its constructor builds one term dictionary and one title
  dictionary per direction. It does so by object spread and by reversing the
  American-to-British pairs (`reverseDict`).
- **Match finding.** `findMatches` and `findTimeMatches` scan the lower-cased
  text and collect a match object. The passes are titles, then word tokens,
  then multi-word phrases, then clock times. A later write to a key overrides
  an earlier one.
- **Orchestration.** `translate` merges the two match objects, with times
  winning. It returns `null` when the result is empty.
- **Substitution.** Otherwise it substitutes the matches into the original
  text twice. `replaceAll` gives the plain text; `replaceAllWithHighlight`
  gives the text with each replacement wrapped in
  `<span class="highlight">…</span>`.

The model is functional:

- `JsObject` models a JavaScript plain object as the insertion-ordered list of
  its own properties. `Set` overwrites a key in place or appends a new one.
  `Assign` and `Spread` fold `Set`, and `Reverse` is `reverseDict`.
- `Dictionaries.Build` is the constructor.
- `Tokenizer` writes out the token regex `(\w+([-'])(\w+)?['-]?(\w+))|\w+` as
  the backtracking it performs.
- `TimePattern` does the same for the two time regexes and the separator
  rewrite.
- `Matching` holds the match passes and `Translation` holds `translate`.
- `Substitution` models the global, case-insensitive replace:
  - `Scan` cuts the text into kept characters and hits, leftmost, with the
    first key in map order winning at each position.
  - `ParsesFrom` is an independent, declarative description of such a reading.
  - `Render` produces either output.
- `Findings` models the two places where the code as written departs from what
  it evidently means to do.

Module map:

| module | file |
|---|---|
| `Wrappers` | `wrappers.dfy` |
| `Text` | `text.dfy` |
| `JsObject` | `jsobject.dfy` |
| `Dictionaries` | `dictionaries.dfy` |
| `Tokenizer` | `tokenizer.dfy` |
| `TimePattern` | `timepattern.dfy` |
| `Matching` | `matching.dfy` |
| `Substitution` | `substitution.dfy` |
| `Translation` | `translator.dfy` |
| `Findings` | `findings.dfy` |

The dictionary data files are parameters (`Dictionaries.Sources`). No I/O,
clock or randomness is involved.

## Model

| member | source | states |
|---|---|---|
| JsObject.Reverse | components/translator.js:8 | `reverseDict`: the keys of the result are exactly the values of the input; each reversed key maps back to a key that had it as value |
| JsObject.ReverseIsSwap | components/translator.js:8 | for an input with distinct values, the reversal is the entry list with keys and values exchanged, in the same order |
| JsObject.ReverseLookup | components/translator.js:8 | for an input with distinct values, the reversal maps `v` to `k` exactly when the input maps `k` to `v` |
| JsObject.ReverseTwice | components/translator.js:8 | for an input with distinct values, the reversal has distinct values too, and reversing twice gives back the input, order included |
| JsObject.AssignFresh | components/translator.js:8 | `Object.fromEntries` of entries whose keys are all new appends them unchanged and in order |
| JsObject.Lookup | components/translator.js:48 | reading an own property: a value exactly when the key is present, and then the value the object binds to it |
| JsObject.Set | components/translator.js:42 | a property assignment binds the key and leaves every other key's value alone; an existing key keeps its position, a new key is appended at the end |
| JsObject.Assign | components/translator.js:52 | assigning a list of entries in turn: the key set is the union; a key listed in the entries takes the last listed value, any other keeps its old value; old keys keep their order |
| JsObject.Spread | components/translator.js:30 | `{...a, ...b}`: keys of both, `b`'s value wins on a shared key, `a`'s order comes first |
| Dictionaries.Build | components/translator.js:11-15 | towards British, spelling pairs override American-only terms and other keys keep their value; towards American, reversed spelling pairs override British-only terms and other keys keep theirs; the title dictionaries are the pairs and their reversal |
| Dictionaries.BuildInvertsPairs | components/translator.js:13-15 | when the pairs have distinct values: the American title dictionary maps `b` to `a` exactly when the British one maps `a` to `b`; every spelling pair is found reversed in the American term dictionary; no title key is empty; reversing the American titles gives the British ones back |
| Text.Lower | components/translator.js:29 | `toLowerCase` keeps the length and lower-cases each character in place, so its result has no upper-case letter |
| Text.Includes | components/translator.js:41 | `includes` is true exactly when the key occurs somewhere in the text |
| Text.Capitalize | components/translator.js:42 | upper-casing the first character keeps the length and the lower-cased form, leaves no lower-case first letter and keeps the rest of the string as it is |
| Text.ReplaceFirst | components/translator.js:62 | `replace` with a one-character pattern keeps the length, leaves a string without that character unchanged, and changes no other character |
| Text.ReplaceFirstSplit | components/translator.js:62 | when the character's first occurrence sits between `x` and `y`, only that occurrence is replaced |
| Tokenizer.MatchEnd | components/translator.js:47 | the token match attempted at a position succeeds exactly when a word character is there, and then ends after it and within the text |
| Tokenizer.MatchEndIsLongestToken | components/translator.js:47 | what the backtracking match takes is a token (word characters, at most two joiners, word characters at both ends), and no longer text from the same start is one |
| Tokenizer.TokensFrom | components/translator.js:47 | every token of the global match is token-shaped and occurs in the text at or after the scan's start |
| Tokenizer.TokenAtBoundary | components/translator.js:47 | the global match finds every word that starts at a word boundary: the token the match takes there is among the tokens of the text |
| Tokenizer.DelimitedTokenFound | components/translator.js:47 | a token with neither a word character nor a joiner on either side, such as a hyphenated word inside a sentence, is found whole, as one token |
| Tokenizer.WholeTokenNotSplit | components/translator.js:47 | a text that is a single token is matched whole, not split into words |
| TimePattern.MatchLength | components/translator.js:16-17 | the time match attempted at a position, when it succeeds, takes 4 or 5 characters and stays within the text; `MatchIsClock` and `ClockIsMatched` state what it matches |
| TimePattern.MatchIsClock | components/translator.js:16-17 | what the time pattern matches is a clock time: hour 1 to 12, a separator, two-digit minutes 00 to 59 |
| TimePattern.ClockIsMatched | components/translator.js:16-17 | every such clock time is matched whole by the pattern of its separator |
| TimePattern.UnanchoredExamples | components/translator.js:16-17 | the pattern is unanchored and does not reject out-of-range hours: "13:30" yields "3:30", "0:45" yields nothing, and "10.05" is matched whole |
| TimePattern.TimesFrom | components/translator.js:61 | every time the global match finds is a clock time that occurs in the text at or after the scan's start |
| TimePattern.TimeAtBoundary | components/translator.js:61 | the global match finds every time that starts at a position not preceded by a digit or the separator |
| TimePattern.ClockFound | components/translator.js:61 | a clock time in the text that is not preceded by a digit or the separator is among the matched times, whole |
| TimePattern.Rewrite | components/translator.js:62 | the rewrite keeps the length, leaves a time without the separator unchanged, and changes no character other than a separator |
| TimePattern.RewriteClock | components/translator.js:62 | swapping the first separator turns a clock time in one dialect into the same clock time in the other |
| TimePattern.RewriteRoundTrip | components/translator.js:62 | rewriting an American time to British gives a British clock time, and rewriting it back restores the original |
| Matching.Select | components/translator.js:52 | filtering entries by key and mapping values: exactly the kept keys are bound, each to its mapped value |
| Matching.TitleMatches | components/translator.js:40-44 | the title pass binds exactly the title keys the text contains, each to its value with the first letter upper-cased |
| Matching.WordEntries | components/translator.js:47-49 | the word pass binds exactly the tokens whose looked-up value is truthy, each to that value |
| Matching.PhraseEntries | components/translator.js:51-54 | the phrase pass binds exactly the dictionary keys that hold a space and that the text contains, each to its dictionary value |
| Matching.FindMatches | components/translator.js:38-57 | every key occurs in the lower-cased text; a phrase entry beats a word entry, which beats a title entry; each takes its dictionary's value (the capitalized value for a title); the title pass's keys come first in order |
| Matching.TimeEntries | components/translator.js:61-63 | the time pass binds exactly the matched times, each to its rewrite |
| Matching.FindTimeMatches | components/translator.js:59-65 | the keys are exactly the clock times the pattern finds in the text; each occurs in the text and maps to its rewrite, which has the same length |
| Translation.MatchesMap | components/translator.js:30 | the merged match object: a time beats a phrase, which beats a word, which beats a title; every key occurs in the lower-cased text |
| Translation.MatchKeysLower | components/translator.js:29-30 | every key of the match object occurs in the lower-cased text and so is lower-case itself |
| Translation.EmptyExactlyWhenNothing | components/translator.js:33 | the match object is empty exactly when no pass finds anything: no contained title, no token with a truthy entry, no contained phrase, no time |
| Translation.Outcome | components/translator.js:33-35 | `null` exactly when the match object has no key; otherwise, for any leftmost, first-key-wins reading of the text, the plain and the highlighted rendering of that reading |
| Translation.Translate | components/translator.js:28-36 | `translate` returns `null` exactly when there is nothing to translate |
| Translation.DictionaryWordTranslated | components/translator.js:47-48 | a whole word of the text with a truthy own dictionary entry is a key of the match object, bound to that entry, and `translate` does not return `null` |
| Translation.ClockTranslated | components/translator.js:59-63 | a clock time of the text not preceded by a digit or the separator is a key of the match object, bound to the same time in the other dialect, and `translate` does not return `null` |
| Translation.TranslationsAgree | components/translator.js:28-36 | for the one leftmost reading of the text, the plain translation puts the matched key's own value at each hit and the highlighted one puts the same value between the markers; the highlighted text is longer by one pair of markers per hit |
| Translation.ToBritishEnglish | components/translator.js:20-22 | `toBritishEnglish` is `null` exactly when nothing is found with the British dictionaries and the ':' time pattern |
| Translation.ToAmericanEnglish | components/translator.js:24-26 | `toAmericanEnglish` is `null` exactly when nothing is found with the American dictionaries and the '.' time pattern |
| Substitution.LiteralMatch | components/translator.js:68 | with the `i` flag, a key read literally matches at a position exactly when the lower-cased text there equals the lower-cased key |
| Substitution.FirstMatchFrom | components/translator.js:68 | the alternation picks the first key, in key order, that matches at the position, and none before it matches |
| Substitution.KeptStep | components/translator.js:69 | where no key matches, the global replace keeps the character and moves one on |
| Substitution.HitStep | components/translator.js:69 | where the first matching key matches, the global replace cuts that hit and resumes right after it |
| Substitution.ScanParses | components/translator.js:69 | the scan of the global replace is a leftmost, first-key-wins reading of the text |
| Substitution.ParseIsScan | components/translator.js:69 | any such reading is the scan: the reading is unique |
| Substitution.ScanSource | components/translator.js:69 | the pieces of the scan put back together are the text; every character outside a hit is kept as it is |
| Substitution.ScanNoOccurrence | components/translator.js:69 | where no key occurs, the scan has no hit |
| Substitution.RenderLength | components/translator.js:74 | the highlighted rendering is the plain one plus one pair of markers per hit |
| Substitution.SubstitutionsAgree | components/translator.js:67-75 | with the keys read either as written (unescaped) or literally, the plain and the highlighted replace render the one leftmost, first-key-wins reading, with the same replacement at the same hits; the highlighted text is longer by one pair of markers per hit; when no key matches anywhere under that reading, both return the text unchanged |
| Substitution.RenderingsAgree | components/translator.js:67-75 | the same for `ReplaceAll` and `ReplaceAllWithHighlight`, which read the keys literally |
| Substitution.Replacement | components/translator.js:69 | the callback's value, `matchesMap[matched.toLowerCase()]` stringified, is the value bound to the lower-cased text when that is a key; when it is not, it is the inherited property's text for `constructor` and `__proto__` and "undefined" for any other text |
| Substitution.MissingText | components/translator.js:69 | reading the match object at a name it does not own and stringifying gives the inherited property's text for `constructor` and `__proto__`, and "undefined" for any other name |
| Substitution.ReplacementReadsInherited | components/translator.js:69 | a hit "Constructor" or "__PROTO__" that is no key is written as the text of the inherited property, and "Constructors" as "undefined" |
| JsObject.InheritedText | components/translator.js:69 | a plain object read at a name it does not own gives a defined, non-empty text exactly for the all-lower-case inherited names `constructor` and `__proto__` |
| Substitution.HitsUseTheirValues | components/translator.js:69 | with lower-case keys, each hit of the literal reading is replaced by the value of the key that matched it, never by "undefined" |
| Findings.GetAsWritten | components/translator.js:48 | `dict[word]` as written: an own entry is read as it is, a missing key falls through to the inherited property, and `constructor` is always found |
| Findings.FindMatchesAsWritten | components/translator.js:48 | as written, a token that is not a dictionary key but names an inherited property is recorded with that property |
| Findings.TranslateAsWritten | components/translator.js:28-36 | `translate` as written, with inherited properties read and keys joined unescaped: `null` exactly when that match object is empty |
| Findings.WildcardCounterexample | components/translator.js:68-69 | towards American, "6.30 6030" is translated as written to "6:30 undefined"; with literal keys it becomes "6:30 6030" |
| Findings.ConstructorCounterexample | components/translator.js:48 | towards British, with no entry for it, "constructor" is translated as written into the source text of `Object`; read through own properties only, there is nothing to translate |

## Left out

- The dictionary data files (`components/translator.js:3-6`) are static data that the model does not contain. They are the parameters of `Dictionaries.Build`.
- Case folding is ASCII only. `toLowerCase`, `toUpperCase`, `\w` and the `i` flag are modelled on the letters A–Z and a–z.
- Regular-expression metacharacters in keys other than '.' are not modelled. `KeySyntax.Unescaped` gives only '.' its wildcard meaning.
- JavaScript enumerates integer-like keys (array indices) before all other keys. The model keeps insertion order for every key, so it assumes no key is an array index.
- Matching.FindMatches: models the corrected reading, in which only the dictionary's own entries are read (`OwnProperty`). `Findings.FindMatchesAsWritten` models `dict[word]` as written.
- Translation.MatchesMap: models the corrected reading, own entries only.
- Translation.Translate: models the corrected reading, own entries only and keys matched literally (`Literal`). The output can differ from the code as written on ordinary data. Take the titles "mr." → "mr" and "mrs." → "mrs", with "mr." first, translated towards British. As written, the unescaped "mr." also matches "Mrs", so "Mr. and Mrs. Smith" becomes "Mr and undefined. Smith"; here it becomes "Mr and Mrs Smith" (no term dictionary entry for these words assumed). `Findings.TranslateAsWritten` models the code as written.
- Translation.TranslationsAgree, Translation.ToBritishEnglish and Translation.ToAmericanEnglish: model the same corrected reading as `Translation.Translate`.
- Translation.Translate: requires a title dictionary without an empty key (`NonEmptyKeys`). The source does not check this. An empty title would put an empty alternative into the pattern, and the model does not cover that. `Dictionaries.BuildInvertsPairs` proves the requirement holds for both title dictionaries when the data is well-formed.
- Translation.ToBritishEnglish and Translation.ToAmericanEnglish: carry the same title-dictionary requirement.
- A `__proto__` token is not modelled. Assigning it to the match object would change the object's prototype rather than add a key.
- The `lastIndex` state of the global regular expressions is not modelled. `match` and `replace` reset it, so it has no effect.
- The highlight span is a literal prefix and suffix. HTML semantics and escaping are not modelled.
- JsObject.Reverse: for an input whose values repeat, it states only that each reversed key maps back to some key that had it as value. It does not say that this is the last such key in order.
- Substitution.ReplaceAll, Substitution.ReplaceAllWithHighlight and Substitution.RenderingsAgree: model the corrected reading, in which the keys are matched literally (`Literal`). Lines 68 and 73 join the keys unescaped; that reading is `Substitution.Substitute` with `Unescaped`, which `Substitution.SubstitutionsAgree` covers. Under it, "no key occurs literally" does not leave the text unchanged: "6030" with the key "6.30" becomes "undefined" (`Findings.WildcardCounterexample`).
- Substitution.ReplaceAll and Substitution.ReplaceAllWithHighlight: carry no contract of their own. What they compute is stated by `Substitution.RenderingsAgree`, given the reading `Substitution.ScanParses` supplies.
- Substitution.Scan: carries no contract of its own. `Substitution.ScanParses` and `Substitution.ParseIsScan` state that it is the one leftmost, first-key-wins reading, and `Substitution.KeptStep` and `Substitution.HitStep` state its steps.

## Findings

| source | as written | input that shows it | evidently intended | confidence | as-written member | corrected member |
|---|---|---|---|---|---|---|
| components/translator.js:68 | the match keys are joined into the alternation unescaped, so the '.' of a time key such as "6.30" (or of a title such as "mr.") matches any character; the matched text is then looked up lower-cased, misses, and is replaced by "undefined" | "6.30 6030" towards American English, with dictionaries that have no entry for these numbers: "6:30 undefined" | keys matched literally: "6:30 6030" | not executed | Findings.WildcardCounterexample | Translation.TranslationsAgree |
| components/translator.js:48 | `dict[word]` is an ordinary property read, so the token "constructor" finds the inherited `Object` function; the substitution writes its source text | "constructor" towards British English, with dictionaries that have no such entry: "function Object() { [native code] }" | only the dictionary's own entries: nothing to translate (`null`) | not executed | Findings.ConstructorCounterexample | Matching.FindMatches |

=== FILE: dictionaries.dfy ===
/**
 * The translator's constructor: the two direction-specific term
 * dictionaries and title dictionaries, built from the four dictionary data
 * objects by object spread and reversal.
 */
module Dictionaries {
  import opened Wrappers
  import opened JsObject

  /** The four dictionary data objects the translator is built from. */
  datatype Sources = Sources(
    americanOnly: Obj,
    americanToBritishSpelling: Obj,
    americanToBritishTitles: Obj,
    britishOnly: Obj)

  /** The data contract: no empty key or value, so every reversed key is non-empty too. */
  predicate NonEmptyKeys(o: Obj) {
    forall k :: k in Keys(o) ==> k != ""
  }

  predicate NonEmptyValues(o: Obj) {
    forall v :: v in Values(o) ==> v != ""
  }

  datatype Translator = Translator(
    dictBritish: Obj,
    dictAmerican: Obj,
    titlesBritish: Obj,
    titlesAmerican: Obj)

  /**
   * The constructor. Towards British, a spelling pair overrides an
   * American-only term with the same key; towards American, a reversed
   * spelling pair overrides a British-only term. Every other key keeps the
   * value of the object it came from.
   */
  function Build(src: Sources): (t: Translator)
    ensures Keys(t.dictBritish) == Keys(src.americanOnly) + Keys(src.americanToBritishSpelling)
    ensures forall k :: Lookup(t.dictBritish, k) == (
              if k in Keys(src.americanToBritishSpelling) then Lookup(src.americanToBritishSpelling, k)
              else Lookup(src.americanOnly, k))
    ensures KeyList(src.americanOnly) <= KeyList(t.dictBritish)
    ensures Keys(t.dictAmerican) == Keys(src.britishOnly) + Values(src.americanToBritishSpelling)
    ensures forall k :: k !in Values(src.americanToBritishSpelling) ==>
              Lookup(t.dictAmerican, k) == Lookup(src.britishOnly, k)
    ensures forall k :: k in Values(src.americanToBritishSpelling) ==>
              (Lookup(t.dictAmerican, k).value, k) in src.americanToBritishSpelling
    ensures KeyList(src.britishOnly) <= KeyList(t.dictAmerican)
    ensures t.titlesBritish == src.americanToBritishTitles
    ensures Keys(t.titlesAmerican) == Values(src.americanToBritishTitles)
  {
    var spellingReversed := Reverse(src.americanToBritishSpelling);
    Translator(
      Spread(src.americanOnly, src.americanToBritishSpelling),
      Spread(src.britishOnly, spellingReversed),
      src.americanToBritishTitles,
      Reverse(src.americanToBritishTitles))
  }

  /** The data contract the dictionary files meet: non-empty keys and values, spelling and title pairs duplicate-free on both sides. */
  predicate WellFormed(src: Sources) {
    && NonEmptyKeys(src.americanOnly) && NonEmptyKeys(src.britishOnly)
    && NonEmptyKeys(src.americanToBritishSpelling) && NonEmptyValues(src.americanToBritishSpelling)
    && NonEmptyKeys(src.americanToBritishTitles) && NonEmptyValues(src.americanToBritishTitles)
    && Injective(src.americanToBritishSpelling) && Injective(src.americanToBritishTitles)
  }

  /**
   * Under the data contract the British-to-American dictionaries invert the
   * American-to-British pairs exactly, and no dictionary has an empty key.
   */
  lemma BuildInvertsPairs(src: Sources, american: string, british: string)
    requires WellFormed(src)
    ensures NonEmptyKeys(Build(src).titlesBritish) && NonEmptyKeys(Build(src).titlesAmerican)
    ensures Lookup(src.americanToBritishTitles, american) == Some(british) <==>
      Lookup(Build(src).titlesAmerican, british) == Some(american)
    ensures Lookup(src.americanToBritishSpelling, american) == Some(british) ==>
      Lookup(Build(src).dictAmerican, british) == Some(american)
    ensures Reverse(Build(src).titlesAmerican) == src.americanToBritishTitles
  {
    var t := Build(src);
    ReverseLookup(src.americanToBritishTitles, american, british);
    ReverseLookup(src.americanToBritishSpelling, american, british);
    ReverseTwice(src.americanToBritishTitles);
    var spelling := src.americanToBritishSpelling;
    if Lookup(spelling, american) == Some(british) {
      LookupEntry(spelling, american, british);
      assert british in Values(spelling);
      assert british in Keys(Reverse(spelling));
    }
  }
}

=== FILE: findings.dfy ===
/**
 * The translation as the source writes it, where it departs from what it
 * evidently means to do, with one input for each departure.
 *
 * 1. The match keys are joined into the alternation without escaping, so
 *    the '.' of a dot-separated time (or of a title such as "mr.") matches
 *    any character. A stretch of text that only looks like a key is then
 *    replaced by `matchesMap[<that text>]`, which is `undefined` unless
 *    the text names an inherited property (`JsObject.InheritedText`).
 * 2. `dict[word]` is an ordinary property read, so a token that names a
 *    property every object inherits is looked up on the prototype. Of
 *    those, only `constructor` and `__proto__` are all lower case and so
 *    can be tokens of the lower-cased text. Assigning `__proto__` to the
 *    match object replaces its prototype rather than adding a key, which
 *    this model leaves out; `constructor` is the one whose value, the
 *    `Object` function, reaches the output as its source text.
 *
 * The corrected reading is the one `Translation.Translate` uses: keys
 * matched literally, own properties only.
 */
module Findings {
  import opened Wrappers
  import opened Text
  import opened JsObject
  import opened Tokenizer
  import opened TimePattern
  import opened Dictionaries
  import opened Matching
  import opened Substitution
  import opened Translation

  /** The inherited property of a plain object that a lower-cased token can name and that adds a key when assigned (`__proto__` is left out). */
  function Inherited(k: string): Option<string> {
    if k == "constructor" then Some(ObjectConstructorText) else None
  }

  /** `dict[word]` as written: the own property if there is one, else the inherited one. */
  function GetAsWritten(dict: Obj): (get: string -> Option<string>)
    ensures forall k :: k in Keys(dict) ==> get(k) == Lookup(dict, k)
    ensures forall k :: k !in Keys(dict) ==> get(k) == Inherited(k)
    ensures get("constructor").Some?
  {
    k => if k in Keys(dict) then Lookup(dict, k) else Inherited(k)
  }

  /** `findMatches` as written: a token that is not a dictionary key but names an inherited property is recorded with it. */
  function FindMatchesAsWritten(lowerText: string, dict: Obj, titles: Obj): (r: Obj)
    ensures forall k :: k in Keys(r) ==> Includes(lowerText, k)
    ensures forall k :: k !in Keys(dict) && k in Tokens(lowerText) && Inherited(k).Some? ==> Lookup(r, k) == Inherited(k)
  {
    var get := GetAsWritten(dict);
    assert forall k :: k !in Keys(dict) ==> get(k) == Inherited(k);
    FindMatchesReading(lowerText, dict, titles, get)
  }

  /** `translate` as written: inherited properties read, keys joined unescaped. */
  function TranslateAsWritten(text: string, dict: Obj, titles: Obj, dir: Direction): (r: Option<(string, string)>)
    requires NonEmptyKeys(titles)
    ensures r.None? <==> Keys(MatchesMapReading(Lower(text), dict, titles, dir, GetAsWritten(dict))) == {}
  {
    TranslateReading(text, dict, titles, dir, GetAsWritten(dict), Unescaped)
  }

  /** An object in which only `k` is bound is the one entry for it. */
  lemma OnlyKey(m: Obj, k: string, v: string)
    requires forall k' :: Lookup(m, k') == if k' == k then Some(v) else None
    ensures m == [(k, v)]
  {
    assert Lookup(m, k).Some?;
    assert m[0].0 in Keys(m);
    assert m[0].0 == k by {
      assert Lookup(m, m[0].0).Some?;
    }
    if |m| > 1 {
      assert m[1].0 in Keys(m);
      assert Lookup(m, m[1].0).Some?;
    }
    LookupEntry(m, k, m[0].1);
  }

  /** A text without digits holds no clock time. */
  lemma {:induction false} NoDigitsNoTimes(s: string, p: nat, sep: char)
    requires p <= |s|
    requires forall i :: p <= i < |s| ==> !IsDigit(s[i])
    ensures TimesFrom(s, p, sep) == []
    decreases |s| - p
  {
    if p < |s| {
      NoDigitsNoTimes(s, p + 1, sep);
    }
  }

  lemma ConstructorIsOneToken()
    ensures Tokens("constructor") == ["constructor"]
  {
    var t := "constructor";
    assert forall i :: 0 <= i < |t| ==> IsWordChar(t[i]) && !IsJoiner(t[i]);
    WholeTokenNotSplit(t);
  }

  lemma ConstructorIsLower()
    ensures Lower("constructor") == "constructor"
  {
    LowerOfLower("constructor");
  }

  lemma ConstructorHasNoTime(dir: Direction)
    ensures Times("constructor", Separator(dir)) == []
  {
    NoDigitsNoTimes("constructor", 0, Separator(dir));
  }

  /** With empty dictionaries, a text that is one token with a truthy lookup matches only that token. */
  lemma OneTokenMatches(t: string, dir: Direction, get: string -> Option<string>)
    requires Tokens(t) == [t] && Times(t, Separator(dir)) == [] && Truthy(get(t))
    ensures MatchesMapReading(t, [], [], dir, get) == [(t, get(t).value)]
  {
    var m := MatchesMapReading(t, [], [], dir, get);
    forall k ensures Lookup(m, k) == if k == t then get(t) else None {
      EmptyDictionariesLookup(t, dir, get, k);
    }
    OnlyKey(m, t, get(t).value);
  }

  /** A text that is exactly one key is scanned as one hit on it. */
  lemma WholeKeyScan(t: string, syntax: KeySyntax)
    requires |t| > 0
    ensures Scan(t, [t], 0, syntax) == [Hit(t, t)]
  {
    MatchesItself(t, 0, t, syntax);
    assert t[0..|t|] == t;
    HitStep(t, [t], 0, 0, t, syntax);
  }

  /** A text that is exactly its one lower-case key is replaced whole by the key's value. */
  lemma OneKeySubstitution(t: string, v: string, syntax: KeySyntax, open: string, close: string)
    requires Lower(t) == t && |t| > 0
    ensures Substitute(t, [(t, v)], syntax, open, close) == open + v + close
  {
    var m: Obj := [(t, v)];
    assert KeyList(m) == [t];
    WholeKeyScan(t, syntax);
    assert Replacement(m, t) == v;
    assert Render([Hit(t, t)], m, open, close) == RenderPiece(Hit(t, t), m, open, close) + Render([], m, open, close);
  }

  /**
   * With empty dictionaries, a text that is one lower-case token with a
   * truthy lookup is translated into the looked-up value.
   */
  lemma OneTokenTranslated(t: string, dir: Direction, get: string -> Option<string>, syntax: KeySyntax)
    requires Lower(t) == t && Tokens(t) == [t] && Times(t, Separator(dir)) == [] && Truthy(get(t))
    ensures TranslateReading(t, [], [], dir, get, syntax) ==
      Some((get(t).value, HighlightOpen + get(t).value + HighlightClose))
  {
    var v := get(t).value;
    OneTokenMatches(t, dir, get);
    var m: Obj := [(t, v)];
    var none: Obj := [];
    TranslateReadingSome(t, none, none, dir, get, syntax, m);
    OneKeySubstitution(t, v, syntax, "", "");
    OneKeySubstitution(t, v, syntax, HighlightOpen, HighlightClose);
    assert "" + v + "" == v;
    assert Substitute(t, m, syntax, "", "") == v;
    assert TranslateReading(t, none, none, dir, get, syntax) == Some((v, HighlightOpen + v + HighlightClose));
  }

  /** Read through own properties, the same text has nothing to translate. */
  lemma OwnPropertiesOnly(t: string, dir: Direction)
    requires Lower(t) == t && Tokens(t) == [t] && Times(t, Separator(dir)) == []
    ensures Translate(t, [], [], dir).None?
  {
    assert NothingToTranslate(t, [], [], dir);
  }

  /**
   * Finding 2. Towards British English, with dictionaries that have no
   * entry for it, the text "constructor" is translated as written into the
   * source text of the `Object` function; read through own properties only,
   * there is nothing to translate.
   */
  lemma ConstructorCounterexample()
    ensures TranslateAsWritten("constructor", [], [], ToBritish) ==
      Some((ObjectConstructorText, HighlightOpen + ObjectConstructorText + HighlightClose))
    ensures Translate("constructor", [], [], ToBritish).None?
  {
    var none: Obj := [];
    ConstructorIsLower();
    ConstructorIsOneToken();
    ConstructorHasNoTime(ToBritish);
    assert GetAsWritten(none)("constructor") == Some(ObjectConstructorText);
    OneTokenTranslated("constructor", ToBritish, GetAsWritten(none), Unescaped);
    OwnPropertiesOnly("constructor", ToBritish);
  }


  /** With empty dictionaries, a text whose only time is `t` and whose tokens look nothing up matches only `t`. */
  lemma OneTimeMatches(text: string, dir: Direction, get: string -> Option<string>, t: string)
    requires Times(text, Separator(dir)) == [t]
    requires forall k :: k in Tokens(text) ==> !Truthy(get(k))
    ensures MatchesMapReading(text, [], [], dir, get) == [(t, Rewrite(t, dir))]
  {
    OneTimeLookups(text, dir, get, t);
    OnlyKey(MatchesMapReading(text, [], [], dir, get), t, Rewrite(t, dir));
  }

  lemma OneTimeLookups(text: string, dir: Direction, get: string -> Option<string>, t: string)
    requires Times(text, Separator(dir)) == [t]
    requires forall k :: k in Tokens(text) ==> !Truthy(get(k))
    ensures forall k :: Lookup(MatchesMapReading(text, [], [], dir, get), k) == if k == t then Some(Rewrite(t, dir)) else None
  {
    forall k ensures Lookup(MatchesMapReading(text, [], [], dir, get), k) == if k == t then Some(Rewrite(t, dir)) else None {
      OneTimeLookup(text, dir, get, t, k);
    }
  }

  lemma OneTimeLookup(text: string, dir: Direction, get: string -> Option<string>, t: string, k: string)
    requires Times(text, Separator(dir)) == [t]
    requires forall k :: k in Tokens(text) ==> !Truthy(get(k))
    ensures Lookup(MatchesMapReading(text, [], [], dir, get), k) == if k == t then Some(Rewrite(t, dir)) else None
  {
    EmptyDictionariesLookup(text, dir, get, k);
    if k in Tokens(text) {
      assert !Truthy(get(k));
    }
  }

  /** The dot-separated time "6.30" and, after a space, the number "6030". */
  const TimeText: string := "6.30 6030"
  const TimeKey: string := "6.30"

  lemma TimeTextFacts()
    ensures Lower(TimeText) == TimeText
    ensures Times(TimeText, Separator(ToAmerican)) == [TimeKey]
    ensures Rewrite(TimeKey, ToAmerican) == "6:30"
  {
    LowerOfLower(TimeText);
    TimeTextTimes();
    TimeKeyRewrite();
  }

  /** The only clock time in the text is the one at its start. */
  lemma TimeTextTimes()
    ensures Times(TimeText, '.') == [TimeKey]
  {
    var s := TimeText;
    assert MatchLength(s, 0, '.') == Some(4) && s[0..4] == TimeKey;
    TimeTextNoLaterTime();
  }

  lemma TimeTextNoLaterTime()
    ensures TimesFrom(TimeText, 4, '.') == []
  {
    var s := TimeText;
    assert MatchLength(s, 4, '.').None?;
    assert MatchLength(s, 5, '.').None?;
    assert MatchLength(s, 6, '.').None?;
    assert MatchLength(s, 7, '.').None?;
    assert MatchLength(s, 8, '.').None?;
  }

  lemma TimeKeyRewrite()
    ensures Rewrite(TimeKey, ToAmerican) == "6:30"
  {
    ReplaceFirstSplit("6", '.', "30", ':');
    assert TimeKey == "6" + ['.'] + "30";
  }

  /** The one-entry match object of the time. */
  function TimeMatches(): Obj {
    [(TimeKey, "6:30")]
  }

  /** After the time, the literal key matches nowhere: the rest of the text is kept. */
  lemma TimeTextLiteralTail(open: string, close: string)
    ensures Render(Scan(TimeText, [TimeKey], 4, Literal), TimeMatches(), open, close) == " 6030"
  {
    var s, k, m := TimeText, TimeKey, TimeMatches();
    assert KeyList(m) == [k];
    forall i: nat, k' | 4 <= i < |s| && k' in Keys(m) ensures !MatchesAt(s, i, k', Literal) {
      assert k' == k;
      if i == 5 {
        assert !MatchesFrom(s, 5, k, 1, Literal);
      }
    }
    ScanNoOccurrence(s, m, 4, Literal);
    RenderNoHits(Scan(s, [k], 4, Literal), m, open, close);
    ScanSource(s, [k], 4, Literal);
    assert s[4..] == " 6030";
  }

  /** The time's key is replaced by its rewrite; any other span by "undefined". */
  lemma TimeReplacements()
    ensures KeyList(TimeMatches()) == [TimeKey]
    ensures Replacement(TimeMatches(), TimeKey) == "6:30"
    ensures Replacement(TimeMatches(), "6030") == Undefined
  {
    assert Lower(TimeKey) == TimeKey;
    assert Lower("6030") == "6030";
    assert Lookup(TimeMatches(), "6030").None?;
  }

  // Sequence bookkeeping for rendering the three-piece readings of the examples.

  lemma RenderFirst(p: Piece, rest: seq<Piece>, m: Obj, open: string, close: string)
    ensures Render([p] + rest, m, open, close) == RenderPiece(p, m, open, close) + Render(rest, m, open, close)
  {
    assert ([p] + rest)[1..] == rest;
  }

  lemma RenderThree(a: Piece, b: Piece, c: Piece, m: Obj, open: string, close: string)
    ensures Render([a, b, c], m, open, close) ==
      RenderPiece(a, m, open, close) + RenderPiece(b, m, open, close) + RenderPiece(c, m, open, close)
  {
    var x, y, z := RenderPiece(a, m, open, close), RenderPiece(b, m, open, close), RenderPiece(c, m, open, close);
    RenderTwo(b, c, m, open, close);
    RenderFirst(a, [b, c], m, open, close);
    assert [a] + [b, c] == [a, b, c];
    Associative(x, y, z);
  }

  lemma Associative(x: string, y: string, z: string)
    ensures x + (y + z) == x + y + z
  {
  }

  lemma RenderTwo(b: Piece, c: Piece, m: Obj, open: string, close: string)
    ensures Render([b, c], m, open, close) == RenderPiece(b, m, open, close) + RenderPiece(c, m, open, close)
  {
    RenderOne(c, m, open, close);
    RenderFirst(b, [c], m, open, close);
    assert [b] + [c] == [b, c];
  }

  lemma RenderOne(p: Piece, m: Obj, open: string, close: string)
    ensures Render([p], m, open, close) == RenderPiece(p, m, open, close)
  {
    assert [p][1..] == [];
  }

  /** Read literally, only the time is a hit. */
  lemma TimeTextLiteral(open: string, close: string)
    ensures Substitute(TimeText, TimeMatches(), Literal, open, close) == open + "6:30" + close + " 6030"
  {
    var s, k, m := TimeText, TimeKey, TimeMatches();
    TimeReplacements();
    MatchesItself(s, 0, k, Literal);
    assert s[0..4] == k;
    HitStep(s, [k], 0, 0, k, Literal);
    var rest := Scan(s, [k], 4, Literal);
    TimeTextLiteralTail(open, close);
    RenderFirst(Hit(k, k), rest, m, open, close);
  }

  /** The unescaped key matches "6030": its '.' stands for the '0'. */
  lemma WildcardMatches()
    ensures MatchesAt(TimeText, 5, TimeKey, Unescaped)
    ensures TimeText[5..9] == "6030"
  {
    var s, k := TimeText, TimeKey;
    MatchesFromEach(s, 5, k, 0, Unescaped);
    assert CharMatches(k[1], s[6], Unescaped);
  }

  lemma UnescapedTail()
    ensures Scan(TimeText, [TimeKey], 5, Unescaped) == [Hit("6030", TimeKey)]
  {
    WildcardMatches();
    HitStep(TimeText, [TimeKey], 5, 0, "6030", Unescaped);
  }

  lemma UnescapedMiddle()
    ensures Scan(TimeText, [TimeKey], 4, Unescaped) == [Kept(' '), Hit("6030", TimeKey)]
  {
    assert !MatchesAt(TimeText, 4, TimeKey, Unescaped);
    KeptStep(TimeText, [TimeKey], 4, ' ', Unescaped);
    UnescapedTail();
  }

  /** With the key unescaped, its '.' also matches the '0' of "6030". */
  lemma TimeTextUnescapedScan()
    ensures Scan(TimeText, [TimeKey], 0, Unescaped) ==
      [Hit(TimeKey, TimeKey), Kept(' '), Hit("6030", TimeKey)]
  {
    var s, k := TimeText, TimeKey;
    MatchesItself(s, 0, k, Unescaped);
    assert s[0..4] == k;
    HitStep(s, [k], 0, 0, k, Unescaped);
    UnescapedMiddle();
  }

  /** As written, the number after the time is replaced by "undefined". */
  lemma TimeTextUnescaped(open: string, close: string)
    ensures Substitute(TimeText, TimeMatches(), Unescaped, open, close) ==
      (open + "6:30" + close) + " " + (open + Undefined + close)
  {
    var k, m := TimeKey, TimeMatches();
    TimeReplacements();
    TimeTextUnescapedScan();
    var ps := [Hit(k, k), Kept(' '), Hit("6030", k)];
    assert Substitute(TimeText, m, Unescaped, open, close) == Render(ps, m, open, close);
    RenderThree(Hit(k, k), Kept(' '), Hit("6030", k), m, open, close);
    assert RenderPiece(Hit(k, k), m, open, close) == open + "6:30" + close;
    assert RenderPiece(Kept(' '), m, open, close) == " ";
    assert RenderPiece(Hit("6030", k), m, open, close) == open + Undefined + close;
  }

  /** No token of the text names a dictionary entry or an inherited property. */
  lemma TimeTextTokensUnmatched()
    ensures forall k :: k in Tokens(TimeText) ==> !Truthy(GetAsWritten([])(k)) && !Truthy(OwnProperty([])(k))
  {
    var none: Obj := [];
    assert Keys(none) == {};
    forall k | k in Tokens(TimeText) ensures !Truthy(GetAsWritten(none)(k)) && !Truthy(OwnProperty(none)(k)) {
      assert k != "constructor" by {
        var i :| OccursAt(TimeText, i, k);
      }
    }
  }

  /** With empty dictionaries, the time is the only match, whichever way the dictionary is read. */
  lemma TimeTextMatches(get: string -> Option<string>)
    requires forall k :: k in Tokens(TimeText) ==> !Truthy(get(k))
    ensures MatchesMapReading(Lower(TimeText), [], [], ToAmerican, get) == TimeMatches()
  {
    TimeTextFacts();
    OneTimeMatches(TimeText, ToAmerican, get, TimeKey);
  }

  /** Read as written, the translation is the unescaped substitution of the time. */
  lemma TimeTextAsWritten()
    ensures TranslateAsWritten(TimeText, [], [], ToAmerican) ==
      Some((Substitute(TimeText, TimeMatches(), Unescaped, "", ""),
            Substitute(TimeText, TimeMatches(), Unescaped, HighlightOpen, HighlightClose)))
  {
    var none: Obj := [];
    TimeTextTokensUnmatched();
    TimeTextMatches(GetAsWritten(none));
    TranslateReadingSome(TimeText, none, none, ToAmerican, GetAsWritten(none), Unescaped, TimeMatches());
  }

  /** Read as intended, the translation is the literal substitution of the time. */
  lemma TimeTextAsIntended()
    ensures Translate(TimeText, [], [], ToAmerican) ==
      Some((Substitute(TimeText, TimeMatches(), Literal, "", ""),
            Substitute(TimeText, TimeMatches(), Literal, HighlightOpen, HighlightClose)))
  {
    var none: Obj := [];
    TimeTextTokensUnmatched();
    TimeTextMatches(OwnProperty(none));
    TranslateReadingSome(TimeText, none, none, ToAmerican, OwnProperty(none), Literal, TimeMatches());
  }

  // Sequence bookkeeping: empty markers add nothing.
  lemma NoMarkers(x: string)
    ensures "" + x + "" == x
  {
  }

  /**
   * Finding 1. Towards American English, with dictionaries that have no
   * entry for these numbers, the time "6.30" becomes "6:30" in both
   * readings; as written, the number "6030" after it also matches the key
   * "6.30" and is replaced by "undefined".
   */
  lemma WildcardCounterexample()
    ensures TranslateAsWritten(TimeText, [], [], ToAmerican) ==
      Some(("6:30" + " " + Undefined, (HighlightOpen + "6:30" + HighlightClose) + " " + (HighlightOpen + Undefined + HighlightClose)))
    ensures Translate(TimeText, [], [], ToAmerican) ==
      Some(("6:30" + " 6030", HighlightOpen + "6:30" + HighlightClose + " 6030"))
  {
    TimeTextAsWritten();
    TimeTextUnescaped("", "");
    TimeTextUnescaped(HighlightOpen, HighlightClose);
    TimeTextAsIntended();
    TimeTextLiteral("", "");
    TimeTextLiteral(HighlightOpen, HighlightClose);
    NoMarkers("6:30");
    NoMarkers(Undefined);
  }
}

=== FILE: jsobject.dfy ===
/**
 * A JavaScript plain object with string keys and string values, seen as
 * its list of own enumerable properties in insertion order (what
 * `Object.entries` returns). Assigning to a key already present keeps the
 * key where it is and takes the new value; assigning to a new key appends it.
 */
module JsObject {
  import opened Wrappers

  type Entry = (string, string)

  /** No key is listed twice: what makes an entry list the property list of an object. */
  predicate DistinctKeys(es: seq<Entry>) {
    forall i, j :: 0 <= i < j < |es| ==> es[i].0 != es[j].0
  }

  type Obj = es: seq<Entry> | DistinctKeys(es) witness []

  /** `String(Object)`: the text of the `constructor` every plain object inherits. */
  const ObjectConstructorText: string := "function Object() { [native code] }"

  /** `String(Object.prototype)`: the text of the `__proto__` every plain object inherits. */
  const ObjectPrototypeText: string := "[object Object]"

  /**
   * The text of `o[k]` for a key `k` that is not an own property: the two
   * inherited properties whose names are all lower case, and None
   * (`undefined`) for any other name.
   */
  function InheritedText(k: string): (r: Option<string>)
    ensures r.Some? <==> k == "constructor" || k == "__proto__"
    ensures r.Some? ==> r.value != ""
  {
    if k == "constructor" then Some(ObjectConstructorText)
    else if k == "__proto__" then Some(ObjectPrototypeText)
    else None
  }

  function Keys(es: seq<Entry>): set<string> {
    set e | e in es :: e.0
  }

  function Values(es: seq<Entry>): set<string> {
    set e | e in es :: e.1
  }

  /** `Object.keys`, in enumeration order. */
  function KeyList(es: seq<Entry>): seq<string> {
    seq(|es|, i requires 0 <= i < |es| => es[i].0)
  }

  /**
   * The value the last entry for `k` binds (`obj[k]` for own properties;
   * None is `undefined`). An object has at most one entry per key.
   */
  function Lookup(es: seq<Entry>, k: string): (r: Option<string>)
    ensures r.Some? <==> k in Keys(es)
    ensures r.Some? ==> (k, r.value) in es
  {
    if es == [] then None
    else
      assert es == es[..|es| - 1] + [es[|es| - 1]];
      if es[|es| - 1].0 == k then Some(es[|es| - 1].1)
      else Lookup(es[..|es| - 1], k)
  }

  /** Appending an entry binds its key and leaves every other key's lookup alone. */
  lemma LookupAppend(es: seq<Entry>, e: Entry, k: string)
    ensures Lookup(es + [e], k) == if e.0 == k then Some(e.1) else Lookup(es, k)
  {
    assert (es + [e])[..|es|] == es;
  }

  /** Every entry keyed `k` takes the value `v`; order and keys stay as they are. */
  function Overwrite(es: seq<Entry>, k: string, v: string): seq<Entry> {
    seq(|es|, i requires 0 <= i < |es| => if es[i].0 == k then (k, v) else es[i])
  }

  lemma {:induction false} LookupOverwrite(es: seq<Entry>, k: string, v: string, k': string)
    ensures Keys(Overwrite(es, k, v)) == Keys(es)
    ensures Lookup(Overwrite(es, k, v), k') == if k' == k && k in Keys(es) then Some(v) else Lookup(es, k')
    decreases |es|
  {
    var w := Overwrite(es, k, v);
    forall x | x in Keys(w) ensures x in Keys(es) {
      var i :| 0 <= i < |w| && w[i].0 == x;
      assert es[i] in es;
    }
    forall x | x in Keys(es) ensures x in Keys(w) {
      var i :| 0 <= i < |es| && es[i].0 == x;
      assert w[i] in w;
    }
    if es != [] {
      var n := |es| - 1;
      assert w[..n] == Overwrite(es[..n], k, v);
      assert es == es[..n] + [es[n]];
      assert w == w[..n] + [w[n]];
      LookupOverwrite(es[..n], k, v, k');
    }
  }

  /** `o[k] = v` */
  function Set(o: Obj, k: string, v: string): (r: Obj)
    ensures Lookup(r, k) == Some(v)
    ensures forall k' :: k' != k ==> Lookup(r, k') == Lookup(o, k')
    ensures Keys(r) == Keys(o) + {k}
    ensures KeyList(o) <= KeyList(r)
    ensures |r| == if k in Keys(o) then |o| else |o| + 1
  {
    if k in Keys(o) then
      var r := Overwrite(o, k, v);
      assert KeyList(r) == KeyList(o);
      assert forall i :: 0 <= i < |r| ==> r[i].0 == KeyList(o)[i];
      LookupOverwrite(o, k, v, k);
      assert forall k' :: Lookup(r, k') == if k' == k then Some(v) else Lookup(o, k') by {
        forall k' ensures Lookup(r, k') == if k' == k then Some(v) else Lookup(o, k') {
          LookupOverwrite(o, k, v, k');
        }
      }
      r
    else
      var r := o + [(k, v)];
      assert r[..|o|] == o;
      assert forall i :: 0 <= i < |o| ==> o[i].0 != k by {
        forall i | 0 <= i < |o| ensures o[i].0 != k {
          assert o[i] in o;
        }
      }
      r
  }

  /**
   * Assigning the entries of `es` to `o` one after another: what object
   * spread (`{...o, ...src}`) and `Object.fromEntries` do.
   */
  function Assign(o: Obj, es: seq<Entry>): (r: Obj)
    ensures Keys(r) == Keys(o) + Keys(es)
    ensures forall k :: Lookup(r, k) == if k in Keys(es) then Lookup(es, k) else Lookup(o, k)
    ensures KeyList(o) <= KeyList(r)
    decreases |es|
  {
    if es == [] then o
    else
      var n := |es| - 1;
      assert es == es[..n] + [es[n]];
      assert Keys(es) == Keys(es[..n]) + {es[n].0};
      assert forall k :: Lookup(es, k) == if k == es[n].0 then Some(es[n].1) else Lookup(es[..n], k) by {
        forall k ensures Lookup(es, k) == if k == es[n].0 then Some(es[n].1) else Lookup(es[..n], k) {
          LookupAppend(es[..n], es[n], k);
        }
      }
      Set(Assign(o, es[..n]), es[n].0, es[n].1)
  }

  /** `Object.fromEntries(es)`: a later entry for a key overrides an earlier one. */
  function FromEntries(es: seq<Entry>): Obj {
    Assign([], es)
  }

  /** Assigning fresh, distinct keys appends them in order. */
  lemma {:induction false} AssignFresh(o: Obj, es: seq<Entry>)
    requires DistinctKeys(o + es)
    ensures Assign(o, es) == o + es
    decreases |es|
  {
    if es != [] {
      var n := |es| - 1;
      assert o + es == (o + es[..n]) + [es[n]];
      assert DistinctKeys(o + es[..n]) by {
        forall i, j | 0 <= i < j < |o + es[..n]|
          ensures (o + es[..n])[i].0 != (o + es[..n])[j].0
        {
          assert (o + es[..n])[i] == (o + es)[i];
          assert (o + es[..n])[j] == (o + es)[j];
        }
      }
      AssignFresh(o, es[..n]);
      var p := o + es[..n];
      assert es[n].0 !in Keys(p) by {
        forall e | e in p ensures e.0 != es[n].0 {
          var i :| 0 <= i < |p| && p[i] == e;
          assert (o + es)[i] == e && (o + es)[|p|] == es[n];
        }
      }
    }
  }

  /** `{...a, ...b}`: the keys of `b` win, the order of `a` is kept and new keys of `b` follow. */
  function Spread(a: Obj, b: Obj): (r: Obj)
    ensures Keys(r) == Keys(a) + Keys(b)
    ensures forall k :: Lookup(r, k) == if k in Keys(b) then Lookup(b, k) else Lookup(a, k)
    ensures KeyList(a) <= KeyList(r)
  {
    AssignToEmpty(a);
    Assign(Assign([], a), b)
  }

  /** Spreading an object into an empty one copies it entry for entry. */
  lemma AssignToEmpty(a: Obj)
    ensures Assign([], a) == a
  {
    assert [] + a == a;
    AssignFresh([], a);
  }

  /** Distinct values: the object can be reversed without losing a key. */
  predicate Injective(es: seq<Entry>) {
    forall i, j :: 0 <= i < j < |es| ==> es[i].1 != es[j].1
  }

  /** Each entry with key and value exchanged. */
  function Swap(es: seq<Entry>): seq<Entry> {
    seq(|es|, i requires 0 <= i < |es| => (es[i].1, es[i].0))
  }

  lemma SwapMembers(es: seq<Entry>)
    ensures forall k, v :: (k, v) in es <==> (v, k) in Swap(es)
    ensures Keys(Swap(es)) == Values(es)
  {
    var s := Swap(es);
    forall k, v ensures (k, v) in es <==> (v, k) in s {
      if (k, v) in es {
        var i :| 0 <= i < |es| && es[i] == (k, v);
        assert s[i] == (v, k);
      }
      if (v, k) in s {
        var i :| 0 <= i < |s| && s[i] == (v, k);
        assert es[i] == (k, v);
      }
    }
    forall x | x in Values(es) ensures x in Keys(s) {
      var e :| e in es && e.1 == x;
      assert (e.1, e.0) in s;
    }
    forall x | x in Keys(s) ensures x in Values(es) {
      var e :| e in s && e.0 == x;
      assert (e.1, e.0) in es;
    }
  }

  /**
   * `reverseDict`: `Object.fromEntries` of the swapped entries. Its keys
   * are the values of `o`; each key maps back to a key of `o` that had it
   * as value (the last such key, when several did).
   */
  function Reverse(o: Obj): (r: Obj)
    ensures Keys(r) == Values(o)
    ensures forall v :: v in Keys(r) ==> (Lookup(r, v).value, v) in o
  {
    SwapMembers(o);
    FromEntries(Swap(o))
  }

  /** In an object an entry is found exactly by its own key. */
  lemma LookupEntry(o: Obj, k: string, v: string)
    ensures Lookup(o, k) == Some(v) <==> (k, v) in o
  {
    if (k, v) in o {
      var i :| 0 <= i < |o| && o[i] == (k, v);
      var r := Lookup(o, k);
      var j :| 0 <= j < |o| && o[j] == (k, r.value);
      assert i == j;
    }
  }

  /** For distinct values the reversal is exactly the swapped entry list, in the same order. */
  lemma ReverseIsSwap(o: Obj)
    requires Injective(o)
    ensures Reverse(o) == Swap(o)
  {
    var s := Swap(o);
    assert [] + s == s;
    assert DistinctKeys(s) by {
      forall i, j | 0 <= i < j < |s| ensures s[i].0 != s[j].0 {
        assert s[i].0 == o[i].1 && s[j].0 == o[j].1;
      }
    }
    AssignFresh([], s);
  }

  /** Reversal of an injective object maps each value back to its key, and only that. */
  lemma ReverseLookup(o: Obj, k: string, v: string)
    requires Injective(o)
    ensures Lookup(Reverse(o), v) == Some(k) <==> Lookup(o, k) == Some(v)
  {
    ReverseIsSwap(o);
    SwapMembers(o);
    LookupEntry(o, k, v);
    LookupEntry(Reverse(o), v, k);
  }

  /** Reversing an injective object twice gives back the object, order included. */
  lemma ReverseTwice(o: Obj)
    requires Injective(o)
    ensures Injective(Reverse(o))
    ensures Reverse(Reverse(o)) == o
  {
    ReverseIsSwap(o);
    var s: Obj := Swap(o);
    assert Injective(s);
    ReverseIsSwap(s);
    assert Swap(s) == o;
  }
}

=== FILE: matching.dfy ===
/**
 * The match finder: `findMatches` (titles, then words, then phrases) and
 * `findTimeMatches`. Each pass selects entries in its own order and assigns
 * them into the match object, so a later pass overrides an earlier one on
 * the same key while the key keeps its first position.
 */
module Matching {
  import opened Wrappers
  import opened Text
  import opened JsObject
  import opened Tokenizer
  import opened TimePattern

  /** The entries of `es` whose key passes `keep`, values passed through `f`, in the order of `es`. */
  function Select(es: seq<Entry>, keep: string -> bool, f: string -> string): (r: seq<Entry>)
    ensures forall k :: Lookup(r, k) == if keep(k) && k in Keys(es) then Some(f(Lookup(es, k).value)) else None
    decreases |es|
  {
    if es == [] then []
    else
      var n := |es| - 1;
      assert es == es[..n] + [es[n]];
      var init := Select(es[..n], keep, f);
      if keep(es[n].0) then
        assert forall k :: Lookup(init + [(es[n].0, f(es[n].1))], k) ==
                           if k == es[n].0 then Some(f(es[n].1)) else Lookup(init, k) by {
          forall k ensures Lookup(init + [(es[n].0, f(es[n].1))], k) ==
                           if k == es[n].0 then Some(f(es[n].1)) else Lookup(init, k) {
            LookupAppend(init, (es[n].0, f(es[n].1)), k);
          }
        }
        init + [(es[n].0, f(es[n].1))]
      else init
  }

  /** `if (dict[word])`: the own property exists and, being a string, is non-empty. */
  predicate Truthy(v: Option<string>) {
    v.Some? && v.value != ""
  }

  /** The title pass: each title the text contains, its value with the first letter upper-cased. */
  function TitleEntries(lowerText: string, titles: Obj): seq<Entry> {
    Select(titles, k => Includes(lowerText, k), Capitalize)
  }

  /** The match object after the title pass. */
  function TitleMatches(lowerText: string, titles: Obj): (r: Obj)
    ensures forall k :: k in Keys(r) ==> Includes(lowerText, k)
    ensures forall k :: Lookup(r, k) == if Includes(lowerText, k) && k in Keys(titles) then Some(Capitalize(Lookup(titles, k).value)) else None
  {
    Assign([], TitleEntries(lowerText, titles))
  }

  /**
   * The word pass: each token whose looked-up value is truthy, in text
   * order. `get` is the property read `dict[word]`; the translation reads
   * the dictionary's own entries only (`OwnProperty`).
   */
  function WordEntries(tokens: seq<string>, get: string -> Option<string>): (r: seq<Entry>)
    ensures forall k :: Lookup(r, k) == if k in tokens && Truthy(get(k)) then get(k) else None
    decreases |tokens|
  {
    if tokens == [] then []
    else
      var n := |tokens| - 1;
      assert tokens == tokens[..n] + [tokens[n]];
      var init := WordEntries(tokens[..n], get);
      var w := tokens[n];
      if Truthy(get(w)) then
        assert forall k :: Lookup(init + [(w, get(w).value)], k) ==
                           if k == w then get(w) else Lookup(init, k) by {
          forall k ensures Lookup(init + [(w, get(w).value)], k) ==
                           if k == w then get(w) else Lookup(init, k) {
            LookupAppend(init, (w, get(w).value), k);
          }
        }
        init + [(w, get(w).value)]
      else init
  }

  /** Reading only the object's own properties. */
  function OwnProperty(dict: Obj): string -> Option<string> {
    k => Lookup(dict, k)
  }

  /** The phrase pass: each dictionary key with a space in it that the text contains, in dictionary order. */
  function PhraseEntries(lowerText: string, dict: Obj): (r: seq<Entry>)
    ensures forall k :: Lookup(r, k) == if ' ' in k && Includes(lowerText, k) && k in Keys(dict) then Lookup(dict, k) else None
  {
    Select(dict, k => ' ' in k && Includes(lowerText, k), v => v)
  }

  /**
   * `findMatches`, with the word pass reading the dictionary through `get`.
   * A key is recorded only if the text contains it; a phrase beats a word,
   * which beats a title, on the same key.
   */
  function FindMatchesReading(lowerText: string, dict: Obj, titles: Obj, get: string -> Option<string>): (r: Obj)
    ensures forall k :: k in Keys(r) ==> Includes(lowerText, k)
    ensures forall k :: Lookup(r, k) == (
              if ' ' in k && Includes(lowerText, k) && k in Keys(dict) then Lookup(dict, k)
              else if k in Tokens(lowerText) && Truthy(get(k)) then get(k)
              else if Includes(lowerText, k) && k in Keys(titles) then Some(Capitalize(Lookup(titles, k).value))
              else None)
    ensures KeyList(TitleMatches(lowerText, titles)) <= KeyList(r)
  {
    var found := TitleMatches(lowerText, titles);
    var withWords := Assign(found, WordEntries(Tokens(lowerText), get));
    Assign(withWords, PhraseEntries(lowerText, dict))
  }

  /**
   * `findMatches`. A key is recorded only if the text contains it; a phrase
   * beats a word, which beats a title, on the same key; the value is the
   * dictionary's, or the capitalized title.
   */
  function FindMatches(lowerText: string, dict: Obj, titles: Obj): (r: Obj)
    ensures forall k :: k in Keys(r) ==> Includes(lowerText, k)
    ensures forall k :: Lookup(r, k) == (
              if ' ' in k && Includes(lowerText, k) && k in Keys(dict) then Lookup(dict, k)
              else if k in Tokens(lowerText) && Truthy(Lookup(dict, k)) then Lookup(dict, k)
              else if Includes(lowerText, k) && k in Keys(titles) then Some(Capitalize(Lookup(titles, k).value))
              else None)
    ensures KeyList(TitleMatches(lowerText, titles)) <= KeyList(r)
  {
    FindMatchesReading(lowerText, dict, titles, OwnProperty(dict))
  }

  /** The time pass: each matched time paired with its rewrite, in text order. */
  function TimeEntries(times: seq<string>, dir: Direction): (r: seq<Entry>)
    ensures forall k :: Lookup(r, k) == if k in times then Some(Rewrite(k, dir)) else None
    decreases |times|
  {
    if times == [] then []
    else
      var n := |times| - 1;
      assert times == times[..n] + [times[n]];
      var init := TimeEntries(times[..n], dir);
      assert forall k :: Lookup(init + [(times[n], Rewrite(times[n], dir))], k) ==
                         if k == times[n] then Some(Rewrite(k, dir)) else Lookup(init, k) by {
        forall k ensures Lookup(init + [(times[n], Rewrite(times[n], dir))], k) ==
                         if k == times[n] then Some(Rewrite(k, dir)) else Lookup(init, k) {
          LookupAppend(init, (times[n], Rewrite(times[n], dir)), k);
        }
      }
      init + [(times[n], Rewrite(times[n], dir))]
  }

  /**
   * `findTimeMatches`: every key is a clock time in the source dialect that
   * the text contains, and its value is the same time with the separator
   * swapped (same length).
   */
  function FindTimeMatches(lowerText: string, dir: Direction): (r: Obj)
    ensures forall k :: k in Keys(r) <==> k in Times(lowerText, Separator(dir))
    ensures forall k :: k in Keys(r) ==> Includes(lowerText, k) && IsClock(k, Separator(dir))
    ensures forall k :: k in Keys(r) ==> Lookup(r, k) == Some(Rewrite(k, dir)) && |Rewrite(k, dir)| == |k|
  {
    Assign([], TimeEntries(Times(lowerText, Separator(dir)), dir))
  }

  /** A token never holds a space, so the word and phrase passes never write the same key. */
  lemma WordsAndPhrasesDisjoint(lowerText: string, dict: Obj, k: string)
    requires k in Tokens(lowerText)
    ensures ' ' !in k
  {
  }
}

=== FILE: substitution.dfy ===
/**
 * `replaceAll` and `replaceAllWithHighlight`: the keys of the match object
 * joined into one case-insensitive alternation, scanned leftmost over the
 * original text, each hit replaced by the value of its lower-cased text.
 * The source joins the keys without escaping them, so a '.' in a key
 * matches any character but a line terminator; `KeySyntax` selects that
 * reading (`Unescaped`) or the literal one (`Literal`) the translation
 * itself relies on.
 */
module Substitution {
  import opened Wrappers
  import opened Text
  import opened JsObject

  const HighlightOpen: string := "<span class=\"highlight\">"
  const HighlightClose: string := "</span>"

  /** What `String(undefined)` gives when a hit's lower-cased text is neither a key nor an inherited name. */
  const Undefined: string := "undefined"

  /** No alternative of the alternation is empty. */
  predicate NoEmptyAlternative(keys: seq<string>) {
    forall j :: 0 <= j < |keys| ==> |keys[j]| > 0
  }

  /** How a key is read inside the alternation. */
  datatype KeySyntax = Literal | Unescaped

  /** `.`, `\n`, `\r`, U+2028 and U+2029: what an unescaped '.' does not match. */
  predicate IsLineTerminator(c: char) {
    c == '\n' || c == '\r' || c == '\U{2028}' || c == '\U{2029}'
  }

  /** A key character against a text character, ignoring the case of ASCII letters (the `i` flag). */
  predicate CharMatches(p: char, c: char, syntax: KeySyntax) {
    if syntax == Unescaped && p == '.' then !IsLineTerminator(c) else LowerChar(p) == LowerChar(c)
  }

  /** `key` matches the text at `i`, character by character. */
  predicate MatchesAt(text: string, i: nat, key: string, syntax: KeySyntax) {
    i + |key| <= |text| && MatchesFrom(text, i, key, 0, syntax)
  }

  /** The characters of `key` from `d` on match the text from `i + d` on. */
  predicate MatchesFrom(text: string, i: nat, key: string, d: nat, syntax: KeySyntax)
    requires i + |key| <= |text| && d <= |key|
    decreases |key| - d
  {
    d == |key| || (CharMatches(key[d], text[i + d], syntax) && MatchesFrom(text, i, key, d + 1, syntax))
  }

  /** `MatchesFrom` is the character-wise comparison of the rest of the key. */
  lemma {:induction false} MatchesFromEach(text: string, i: nat, key: string, d: nat, syntax: KeySyntax)
    requires i + |key| <= |text| && d <= |key|
    ensures MatchesFrom(text, i, key, d, syntax) <==> forall e :: d <= e < |key| ==> CharMatches(key[e], text[i + e], syntax)
    decreases |key| - d
  {
    if d < |key| {
      MatchesFromEach(text, i, key, d + 1, syntax);
    }
  }

  /** A key matches where it occurs as it is, in either reading. */
  lemma MatchesItself(text: string, i: nat, key: string, syntax: KeySyntax)
    requires OccursAt(text, i, key)
    ensures MatchesAt(text, i, key, syntax)
  {
    forall e | 0 <= e < |key| ensures CharMatches(key[e], text[i + e], syntax) {
      assert text[i..i + |key|][e] == text[i + e];
    }
    MatchesFromEach(text, i, key, 0, syntax);
  }

  /** Read literally, a key matches exactly where the lower-cased text holds the lower-cased key. */
  lemma LiteralMatch(text: string, i: nat, key: string)
    requires i + |key| <= |text|
    ensures MatchesAt(text, i, key, Literal) <==> Lower(text[i..i + |key|]) == Lower(key)
  {
    var span := text[i..i + |key|];
    MatchesFromEach(text, i, key, 0, Literal);
    if Lower(span) == Lower(key) {
      forall e | 0 <= e < |key| ensures CharMatches(key[e], text[i + e], Literal) {
        assert Lower(span)[e] == Lower(key)[e];
        assert span[e] == text[i + e];
      }
    }
    if MatchesAt(text, i, key, Literal) {
      forall e | 0 <= e < |key| ensures Lower(span)[e] == Lower(key)[e] {
        assert CharMatches(key[e], text[i + e], Literal);
        assert span[e] == text[i + e];
      }
    }
  }

  /** The alternative that wins at `i`: the first of `keys[j..]` that matches there. */
  function FirstMatchFrom(text: string, i: nat, keys: seq<string>, j: nat, syntax: KeySyntax): (r: Option<nat>)
    requires j <= |keys|
    ensures r.Some? ==> j <= r.value < |keys| && MatchesAt(text, i, keys[r.value], syntax)
    ensures r.Some? ==> forall j' :: j <= j' < r.value ==> !MatchesAt(text, i, keys[j'], syntax)
    ensures r.None? ==> forall j' :: j <= j' < |keys| ==> !MatchesAt(text, i, keys[j'], syntax)
    decreases |keys| - j
  {
    if j == |keys| then None
    else if MatchesAt(text, i, keys[j], syntax) then Some(j)
    else FirstMatchFrom(text, i, keys, j + 1, syntax)
  }

  /** A matching key with no matching key before it, from `from` on, is the one the alternation picks. */
  lemma {:induction false} FirstMatchFromIs(text: string, i: nat, keys: seq<string>, from: nat, j: nat, syntax: KeySyntax)
    requires from <= j < |keys| && MatchesAt(text, i, keys[j], syntax)
    requires forall j' :: from <= j' < j ==> !MatchesAt(text, i, keys[j'], syntax)
    ensures FirstMatchFrom(text, i, keys, from, syntax) == Some(j)
    decreases j - from
  {
    if from < j {
      FirstMatchFromIs(text, i, keys, from + 1, j, syntax);
    }
  }

  /** A character left as it is, or a hit: the original text of the span and the key that matched it. */
  datatype Piece = Kept(c: char) | Hit(span: string, key: string)

  function PieceSource(p: Piece): string {
    match p
    case Kept(c) => [c]
    case Hit(span, _) => span
  }

  /** The original text the pieces were cut from. */
  function Source(ps: seq<Piece>): string {
    if ps == [] then [] else PieceSource(ps[0]) + Source(ps[1..])
  }

  lemma {:induction false} SourceAppend(a: seq<Piece>, b: seq<Piece>)
    ensures Source(a + b) == Source(a) + Source(b)
  {
    if a == [] {
      assert a + b == b;
    } else {
      assert (a + b)[0] == a[0];
      assert (a + b)[1..] == a[1..] + b;
      SourceAppend(a[1..], b);
    }
  }

  /** The `n` characters of the text from `i` on, taken one at a time. */
  function Span(text: string, i: nat, n: nat): (r: string)
    requires i + n <= |text|
    ensures |r| == n
    decreases n
  {
    if n == 0 then [] else [text[i]] + Span(text, i + 1, n - 1)
  }

  lemma {:induction false} SpanIsSlice(text: string, i: nat, n: nat)
    requires i + n <= |text|
    ensures Span(text, i, n) == text[i..i + n]
    decreases n
  {
    if n > 0 {
      SpanIsSlice(text, i + 1, n - 1);
      assert text[i..i + n] == [text[i]] + text[i + 1..i + n];
    }
  }

  /** The text holds `s` at `i`, character for character. */
  predicate SourceAt(text: string, i: nat, s: string) {
    i + |s| <= |text| && SourceFrom(text, i, s, 0)
  }

  /** The characters of `s` from `d` on are those of the text from `i + d` on. */
  predicate SourceFrom(text: string, i: nat, s: string, d: nat)
    requires i + |s| <= |text| && d <= |s|
    decreases |s| - d
  {
    d == |s| || (text[i + d] == s[d] && SourceFrom(text, i, s, d + 1))
  }

  lemma {:induction false} SourceFromEach(text: string, i: nat, s: string, d: nat)
    requires i + |s| <= |text| && d <= |s|
    ensures SourceFrom(text, i, s, d) <==> forall e :: d <= e < |s| ==> text[i + e] == s[e]
    decreases |s| - d
  {
    if d < |s| {
      SourceFromEach(text, i, s, d + 1);
    }
  }

  lemma SourceAtSlice(text: string, i: nat, s: string)
    requires i + |s| <= |text|
    ensures SourceAt(text, i, s) <==> text[i..i + |s|] == s
  {
    SourceFromEach(text, i, s, 0);
    if SourceAt(text, i, s) {
      assert forall e :: 0 <= e < |s| ==> text[i..i + |s|][e] == s[e];
    }
  }

  lemma SourceAtSpan(text: string, i: nat, s: string)
    requires SourceAt(text, i, s)
    ensures Span(text, i, |s|) == s
  {
    SourceAtSlice(text, i, s);
    SpanIsSlice(text, i, |s|);
  }

  lemma SpanSourceAt(text: string, i: nat, n: nat)
    requires i + n <= |text|
    ensures SourceAt(text, i, Span(text, i, n))
  {
    SpanIsSlice(text, i, n);
    SourceAtSlice(text, i, Span(text, i, n));
  }

  /** The piece the scan cuts at `i`: a hit on the first key in order that matches there, else the character kept. */
  function NextPiece(text: string, keys: seq<string>, i: nat, syntax: KeySyntax): (p: Piece)
    requires i < |text| && NoEmptyAlternative(keys)
    ensures 0 < |PieceSource(p)| && i + |PieceSource(p)| <= |text|
  {
    match FirstMatchFrom(text, i, keys, 0, syntax)
    case None => Kept(text[i])
    case Some(j) => Hit(Span(text, i, |keys[j]|), keys[j])
  }

  /**
   * The global replace scan from `i` on: at each position the first
   * matching key wins and the scan resumes after it; where none matches,
   * the character is kept and the scan moves one on. The recursion is in
   * `ScanPieces`; keeping `Scan` itself non-recursive lets every proof
   * about it unfold exactly one step of the scan.
   */
  function Scan(text: string, keys: seq<string>, i: nat, syntax: KeySyntax): seq<Piece>
    requires i <= |text|
    requires NoEmptyAlternative(keys)
  {
    ScanPieces(text, keys, i, syntax)
  }

  /** The recursion of `Scan`: the piece at `i`, then the scan after it. */
  function ScanPieces(text: string, keys: seq<string>, i: nat, syntax: KeySyntax): seq<Piece>
    requires i <= |text|
    requires NoEmptyAlternative(keys)
    decreases |text| - i
  {
    if i == |text| then []
    else
      var p := NextPiece(text, keys, i, syntax);
      [p] + ScanPieces(text, keys, i + |PieceSource(p)|, syntax)
  }

  lemma {:induction false} ScanUnfold(text: string, keys: seq<string>, i: nat, syntax: KeySyntax)
    requires i < |text| && NoEmptyAlternative(keys)
    ensures Scan(text, keys, i, syntax) ==
      [NextPiece(text, keys, i, syntax)] + Scan(text, keys, i + |PieceSource(NextPiece(text, keys, i, syntax))|, syntax)
  {
  }

  /** Once the piece at `i` is known, the scan is that piece followed by the scan after it. */
  lemma {:induction false} ScanStep(text: string, keys: seq<string>, i: nat, p: Piece, n: nat, syntax: KeySyntax)
    requires i < |text| && NoEmptyAlternative(keys)
    requires NextPiece(text, keys, i, syntax) == p && |PieceSource(p)| == n
    ensures i + n <= |text|
    ensures Scan(text, keys, i, syntax) == [p] + Scan(text, keys, i + n, syntax)
  {
    ScanUnfold(text, keys, i, syntax);
    var next := i + n;
    assert i + |PieceSource(NextPiece(text, keys, i, syntax))| == next;
  }

  lemma {:induction false} NextHit(text: string, keys: seq<string>, i: nat, j: nat, syntax: KeySyntax)
    requires i < |text| && NoEmptyAlternative(keys) && FirstMatchFrom(text, i, keys, 0, syntax) == Some(j)
    ensures i + |keys[j]| <= |text|
    ensures NextPiece(text, keys, i, syntax) == Hit(Span(text, i, |keys[j]|), keys[j])
  {
  }

  lemma {:induction false} NextKept(text: string, keys: seq<string>, i: nat, syntax: KeySyntax)
    requires i < |text| && NoEmptyAlternative(keys) && FirstMatchFrom(text, i, keys, 0, syntax).None?
    ensures NextPiece(text, keys, i, syntax) == Kept(text[i])
  {
  }

  /** The piece the scan cuts is the text where it is cut. */
  lemma {:induction false} NextPieceSource(text: string, keys: seq<string>, i: nat, syntax: KeySyntax)
    requires i < |text| && NoEmptyAlternative(keys)
    ensures SourceAt(text, i, PieceSource(NextPiece(text, keys, i, syntax)))
  {
    match FirstMatchFrom(text, i, keys, 0, syntax)
    case None =>
      NextKept(text, keys, i, syntax);
    case Some(j) =>
      NextHit(text, keys, i, j, syntax);
      SpanSourceAt(text, i, |keys[j]|);
  }

  lemma SourceSingle(p: Piece)
    ensures Source([p]) == PieceSource(p)
  {
    assert [p][1..] == [];
  }

  /** A piece is right at offset `at`: kept where no key matches, a hit on the first key in order that matches. */
  ghost predicate PieceOk(text: string, keys: seq<string>, at: nat, p: Piece, syntax: KeySyntax) {
    match p
    case Kept(c) => forall k :: k in keys ==> !MatchesAt(text, at, k, syntax)
    case Hit(span, key) =>
      && |span| == |key|
      && MatchesAt(text, at, key, syntax)
      && exists j :: 0 <= j < |keys| && keys[j] == key && forall j' :: 0 <= j' < j ==> !MatchesAt(text, at, keys[j'], syntax)
  }

  /**
   * `ps` is a leftmost, first-key-wins reading of `text[i..]`: the pieces
   * cut the text into consecutive parts, and each is right at its offset.
   */
  ghost predicate ParsesFrom(text: string, keys: seq<string>, i: nat, ps: seq<Piece>, syntax: KeySyntax)
    decreases ps
  {
    if ps == [] then i == |text|
    else
      var n := |PieceSource(ps[0])|;
      && SourceAt(text, i, PieceSource(ps[0]))
      && PieceOk(text, keys, i, ps[0], syntax)
      && ParsesFrom(text, keys, i + n, ps[1..], syntax)
  }

  /** No key matching at `i` leaves nothing for the alternation to pick. */
  lemma {:induction false} NoneMatches(text: string, keys: seq<string>, i: nat, syntax: KeySyntax)
    requires forall k :: k in keys ==> !MatchesAt(text, i, k, syntax)
    ensures FirstMatchFrom(text, i, keys, 0, syntax).None?
  {
    forall j | 0 <= j < |keys| ensures !MatchesAt(text, i, keys[j], syntax) {
      assert keys[j] in keys;
    }
    FirstMatchNone(text, i, keys, 0, syntax);
  }

  lemma {:induction false} FirstMatchNone(text: string, i: nat, keys: seq<string>, from: nat, syntax: KeySyntax)
    requires from <= |keys|
    requires forall j :: from <= j < |keys| ==> !MatchesAt(text, i, keys[j], syntax)
    ensures FirstMatchFrom(text, i, keys, from, syntax).None?
    decreases |keys| - from
  {
    if from < |keys| {
      FirstMatchNone(text, i, keys, from + 1, syntax);
    }
  }

  /** Where no key matches, the character is kept. */
  lemma {:induction false} KeptIsNext(text: string, keys: seq<string>, i: nat, c: char, syntax: KeySyntax)
    requires i < |text| && NoEmptyAlternative(keys) && text[i] == c
    requires forall k :: k in keys ==> !MatchesAt(text, i, k, syntax)
    ensures NextPiece(text, keys, i, syntax) == Kept(c)
  {
    NoneMatches(text, keys, i, syntax);
    NextKept(text, keys, i, syntax);
  }

  /** A hit on the first matching key is the piece the scan cuts. */
  lemma {:induction false} HitIsNext(text: string, keys: seq<string>, i: nat, j: nat, span: string, syntax: KeySyntax)
    requires NoEmptyAlternative(keys)
    requires j < |keys| && MatchesAt(text, i, keys[j], syntax) && |span| == |keys[j]|
    requires forall j' :: 0 <= j' < j ==> !MatchesAt(text, i, keys[j'], syntax)
    requires SourceAt(text, i, span)
    ensures i < |text|
    ensures NextPiece(text, keys, i, syntax) == Hit(span, keys[j])
  {
    SourceAtSpan(text, i, span);
    assert |keys[j]| > 0;
    FirstMatchFromIs(text, i, keys, 0, j, syntax);
    NextHit(text, keys, i, j, syntax);
  }

  /** Where no key matches, the scan keeps the character and moves one on. */
  lemma KeptStep(text: string, keys: seq<string>, i: nat, c: char, syntax: KeySyntax)
    requires i < |text| && NoEmptyAlternative(keys) && text[i] == c
    requires forall k :: k in keys ==> !MatchesAt(text, i, k, syntax)
    ensures Scan(text, keys, i, syntax) == [Kept(c)] + Scan(text, keys, i + 1, syntax)
  {
    KeptIsNext(text, keys, i, c, syntax);
    ScanStep(text, keys, i, Kept(c), 1, syntax);
  }

  /** Where the first matching key is `keys[j]`, the scan cuts a hit on it and resumes after it. */
  lemma HitStep(text: string, keys: seq<string>, i: nat, j: nat, span: string, syntax: KeySyntax)
    requires NoEmptyAlternative(keys)
    requires j < |keys| && MatchesAt(text, i, keys[j], syntax) && |span| == |keys[j]|
    requires forall j' :: 0 <= j' < j ==> !MatchesAt(text, i, keys[j'], syntax)
    requires i + |span| <= |text| && text[i..i + |span|] == span
    ensures i < |text|
    ensures Scan(text, keys, i, syntax) == [Hit(span, keys[j])] + Scan(text, keys, i + |span|, syntax)
  {
    SourceAtSlice(text, i, span);
    HitIsNext(text, keys, i, j, span, syntax);
    ScanStep(text, keys, i, Hit(span, keys[j]), |span|, syntax);
  }

  lemma {:induction false} ParsesCons(text: string, keys: seq<string>, i: nat, p: Piece, rest: seq<Piece>, syntax: KeySyntax)
    requires SourceAt(text, i, PieceSource(p))
    requires PieceOk(text, keys, i, p, syntax)
    requires ParsesFrom(text, keys, i + |PieceSource(p)|, rest, syntax)
    ensures ParsesFrom(text, keys, i, [p] + rest, syntax)
  {
    var ps := [p] + rest;
    assert ps[0] == p && ps[1..] == rest by {
      assert ps[1..] == rest;
    }
  }

  /** The piece the scan cuts is right at its offset. */
  lemma {:induction false} NextPieceOk(text: string, keys: seq<string>, i: nat, syntax: KeySyntax)
    requires i < |text| && NoEmptyAlternative(keys)
    ensures PieceOk(text, keys, i, NextPiece(text, keys, i, syntax), syntax)
  {
    match FirstMatchFrom(text, i, keys, 0, syntax)
    case None =>
      NextKept(text, keys, i, syntax);
      forall k | k in keys ensures !MatchesAt(text, i, k, syntax) {
        var j :| 0 <= j < |keys| && keys[j] == k;
      }
    case Some(j) =>
      NextHit(text, keys, i, j, syntax);
  }

  /** The piece the scan cuts at `i` is right there: if the scan after it is a reading, so is the scan from `i`. */
  lemma ScanHead(text: string, keys: seq<string>, i: nat, syntax: KeySyntax) returns (n: nat)
    requires i < |text| && NoEmptyAlternative(keys)
    ensures i < i + n <= |text|
    ensures ParsesFrom(text, keys, i + n, Scan(text, keys, i + n, syntax), syntax) ==> ParsesFrom(text, keys, i, Scan(text, keys, i, syntax), syntax)
  {
    var p := NextPiece(text, keys, i, syntax);
    n := |PieceSource(p)|;
    var rest := Scan(text, keys, i + n, syntax);
    ScanStep(text, keys, i, p, n, syntax);
    if ParsesFrom(text, keys, i + n, rest, syntax) {
      NextPieceSource(text, keys, i, syntax);
      NextPieceOk(text, keys, i, syntax);
      ParsesCons(text, keys, i, p, rest, syntax);
    }
  }

  /** The scan is such a reading. */
  lemma ScanParses(text: string, keys: seq<string>, i: nat, syntax: KeySyntax)
    requires i <= |text| && NoEmptyAlternative(keys)
    ensures ParsesFrom(text, keys, i, Scan(text, keys, i, syntax), syntax)
  {
    ScanReads(text, keys, i, syntax);
  }

  /** `ScanParses` by induction on the scan, with the reading kept whole (compared with `true`) so each step is one fact. */
  lemma {:induction false} ScanReads(text: string, keys: seq<string>, i: nat, syntax: KeySyntax)
    requires i <= |text| && NoEmptyAlternative(keys)
    ensures ParsesFrom(text, keys, i, Scan(text, keys, i, syntax), syntax) == true
    decreases |text| - i
  {
    if i < |text| {
      var n := ScanHead(text, keys, i, syntax);
      ScanReads(text, keys, i + n, syntax);
    } else {
      ScanEnd(text, keys, syntax);
    }
  }

  /** At the end of the text the scan is empty, which is a reading. */
  lemma ScanEnd(text: string, keys: seq<string>, syntax: KeySyntax)
    requires NoEmptyAlternative(keys)
    ensures ParsesFrom(text, keys, |text|, Scan(text, keys, |text|, syntax), syntax)
  {
    assert Scan(text, keys, |text|, syntax) == [];
  }

  /** A piece that is right at `i` is the piece the scan cuts there. */
  lemma {:induction false} PieceIsNext(text: string, keys: seq<string>, i: nat, p: Piece, syntax: KeySyntax)
    requires NoEmptyAlternative(keys)
    requires SourceAt(text, i, PieceSource(p))
    requires PieceOk(text, keys, i, p, syntax)
    ensures i < |text| && NextPiece(text, keys, i, syntax) == p
  {
    match p {
      case Kept(c) =>
        assert text[i + 0] == [c][0];
        KeptIsNext(text, keys, i, c, syntax);
      case Hit(span, key) =>
        var j :| 0 <= j < |keys| && keys[j] == key && forall j' :: 0 <= j' < j ==> !MatchesAt(text, i, keys[j'], syntax);
        HitIsNext(text, keys, i, j, span, syntax);
    }
  }

  /** A reading that is not empty is its first piece, right at `i`, followed by a reading of the rest. */
  lemma ParsesUncons(text: string, keys: seq<string>, i: nat, ps: seq<Piece>, syntax: KeySyntax) returns (p0: Piece, rest: seq<Piece>, n: nat)
    requires ParsesFrom(text, keys, i, ps, syntax) && ps != []
    ensures ps == [p0] + rest && n == |PieceSource(p0)| && |rest| < |ps|
    ensures SourceAt(text, i, PieceSource(p0)) && PieceOk(text, keys, i, p0, syntax)
    ensures ParsesFrom(text, keys, i + n, rest, syntax)
  {
    p0, rest, n := ps[0], ps[1..], |PieceSource(ps[0])|;
    assert ps == [p0] + rest;
  }

  lemma SameCons(a: seq<Piece>, b: seq<Piece>, x: Piece, r: seq<Piece>)
    requires a == [x] + r && b == [x] + r
    ensures a == b
  {
  }

  /**
   * The first piece of a reading is the piece the scan cuts, and the rest
   * is a reading after it: if the rest is the scan after it, the reading
   * is the scan.
   */
  lemma ParsesHead(text: string, keys: seq<string>, i: nat, ps: seq<Piece>, syntax: KeySyntax) returns (rest: seq<Piece>, n: nat)
    requires NoEmptyAlternative(keys)
    requires ParsesFrom(text, keys, i, ps, syntax) && ps != []
    ensures |rest| < |ps| && ParsesFrom(text, keys, i + n, rest, syntax)
    ensures i + n <= |text| && (rest == Scan(text, keys, i + n, syntax) ==> ps == Scan(text, keys, i, syntax))
  {
    var p0;
    p0, rest, n := ParsesUncons(text, keys, i, ps, syntax);
    PieceIsNext(text, keys, i, p0, syntax);
    ScanStep(text, keys, i, p0, n, syntax);
    if rest == Scan(text, keys, i + n, syntax) {
      SameCons(ps, Scan(text, keys, i, syntax), p0, rest);
    }
  }

  /** And it is the only one. */
  lemma {:induction false} ParseIsScan(text: string, keys: seq<string>, i: nat, ps: seq<Piece>, syntax: KeySyntax)
    requires NoEmptyAlternative(keys)
    requires ParsesFrom(text, keys, i, ps, syntax)
    ensures i <= |text| && ps == Scan(text, keys, i, syntax)
    decreases |ps|
  {
    if ps == [] {
      assert i == |text|;
    } else {
      var rest, n := ParsesHead(text, keys, i, ps, syntax);
      ParseIsScan(text, keys, i + n, rest, syntax);
    }
  }

  /** A piece held by the text at `i`, then pieces held by the text right after it, are held by the text at `i`. */
  lemma SourceCons(text: string, i: nat, p: Piece, rest: seq<Piece>)
    requires SourceAt(text, i, PieceSource(p)) && SourceAt(text, i + |PieceSource(p)|, Source(rest))
    ensures SourceAt(text, i, Source([p] + rest))
    ensures |Source([p] + rest)| == |PieceSource(p)| + |Source(rest)|
  {
    SourceAppend([p], rest);
    SourceSingle(p);
    var a, b := PieceSource(p), Source(rest);
    SourceFromEach(text, i, a, 0);
    SourceFromEach(text, i + |a|, b, 0);
    SourceFromEach(text, i, a + b, 0);
    forall e | 0 <= e < |a + b| ensures text[i + e] == (a + b)[e] {
      if e >= |a| {
        assert text[(i + |a|) + (e - |a|)] == b[e - |a|];
      }
    }
  }

  /** The pieces of a reading, joined, are the rest of the text. */
  lemma {:induction false} ParsesSource(text: string, keys: seq<string>, i: nat, ps: seq<Piece>, syntax: KeySyntax)
    requires ParsesFrom(text, keys, i, ps, syntax)
    ensures SourceAt(text, i, Source(ps)) && i + |Source(ps)| == |text|
    decreases |ps|
  {
    if ps != [] {
      var p0, rest, n := ParsesUncons(text, keys, i, ps, syntax);
      ParsesSource(text, keys, i + n, rest, syntax);
      SourceCons(text, i, p0, rest);
    }
  }

  /** The pieces of the scan cut the scanned text into consecutive parts. */
  lemma ScanSource(text: string, keys: seq<string>, i: nat, syntax: KeySyntax)
    requires i <= |text|
    requires NoEmptyAlternative(keys)
    ensures Source(Scan(text, keys, i, syntax)) == text[i..]
  {
    var ps := Scan(text, keys, i, syntax);
    ScanParses(text, keys, i, syntax);
    ParsesSource(text, keys, i, ps, syntax);
    SourceAtSlice(text, i, Source(ps));
    assert text[i..i + |Source(ps)|] == text[i..];
  }

  /**
   * What a plain object gives, stringified, when read at a name it does not
   * own: the inherited property's text, or "undefined".
   */
  function MissingText(k: string): (r: string)
    ensures InheritedText(k).Some? ==> r == InheritedText(k).value
    ensures InheritedText(k).None? ==> r == Undefined
  {
    match InheritedText(k)
    case Some(t) => t
    case None => Undefined
  }

  /**
   * The value a hit is replaced with: `matchesMap[matched.toLowerCase()]`,
   * stringified. The match object is a plain object, so a lower-cased text
   * that is not a key but names an inherited property reads that property.
   */
  function Replacement(m: Obj, span: string): (r: string)
    ensures r in Values(m) || (Lower(span) !in Keys(m) && r == MissingText(Lower(span)))
    ensures Lower(span) in Keys(m) ==> (Lower(span), r) in m
    ensures Lower(span) !in Keys(m) ==> r == MissingText(Lower(span))
  {
    match Lookup(m, Lower(span))
    case Some(v) => v
    case None => MissingText(Lower(span))
  }

  /** A hit whose lower-cased text is `constructor` or `__proto__` but no key is written as the inherited property. */
  lemma ReplacementReadsInherited()
    ensures Replacement([], "Constructor") == ObjectConstructorText
    ensures Replacement([], "__PROTO__") == ObjectPrototypeText
    ensures Replacement([], "Constructors") == Undefined
  {
    assert Lower("Constructor") == "constructor";
    assert Lower("__PROTO__") == "__proto__";
    assert Lower("Constructors") == "constructors";
  }

  function RenderPiece(p: Piece, m: Obj, open: string, close: string): string {
    match p
    case Kept(c) => [c]
    case Hit(span, _) => open + Replacement(m, span) + close
  }

  /** Kept characters as they are, each hit as its replacement between `open` and `close`. */
  function Render(ps: seq<Piece>, m: Obj, open: string, close: string): string {
    if ps == [] then [] else RenderPiece(ps[0], m, open, close) + Render(ps[1..], m, open, close)
  }

  function HitCount(ps: seq<Piece>): nat {
    if ps == [] then 0 else (if ps[0].Hit? then 1 else 0) + HitCount(ps[1..])
  }

  // Arithmetic step for `RenderLength`.
  lemma MulSucc(h: nat, w: nat)
    ensures (h + 1) * w == h * w + w
  {
  }

  lemma PieceLength(p: Piece, m: Obj, open: string, close: string)
    ensures |RenderPiece(p, m, open, close)| == |RenderPiece(p, m, "", "")| + (if p.Hit? then |open| + |close| else 0)
  {
  }

  /** Rendering with markers adds exactly the markers around each hit. */
  lemma {:induction false} RenderLength(ps: seq<Piece>, m: Obj, open: string, close: string)
    ensures |Render(ps, m, open, close)| == |Render(ps, m, "", "")| + HitCount(ps) * (|open| + |close|)
  {
    if ps != [] {
      var w := |open| + |close|;
      var h := HitCount(ps[1..]);
      RenderLength(ps[1..], m, open, close);
      PieceLength(ps[0], m, open, close);
      MulSucc(h, w);
      assert HitCount(ps) == (if ps[0].Hit? then h + 1 else h);
    }
  }

  /** With nothing matched the pieces render back to the text. */
  lemma {:induction false} RenderNoHits(ps: seq<Piece>, m: Obj, open: string, close: string)
    requires HitCount(ps) == 0
    ensures Render(ps, m, open, close) == Source(ps)
  {
    if ps != [] {
      RenderNoHits(ps[1..], m, open, close);
    }
  }

  /** The global replace with the keys of `m` read as `syntax`, each hit rendered between `open` and `close`. */
  function Substitute(text: string, m: Obj, syntax: KeySyntax, open: string, close: string): string
    requires NoEmptyAlternative(KeyList(m))
  {
    Render(Scan(text, KeyList(m), 0, syntax), m, open, close)
  }

  /** `replaceAll` */
  function ReplaceAll(text: string, m: Obj): string
    requires NoEmptyAlternative(KeyList(m))
  {
    Substitute(text, m, Literal, "", "")
  }

  /** `replaceAllWithHighlight` */
  function ReplaceAllWithHighlight(text: string, m: Obj): string
    requires NoEmptyAlternative(KeyList(m))
  {
    Substitute(text, m, Literal, HighlightOpen, HighlightClose)
  }

  /** No key of `m` matches the text at `from` or after it. */
  ghost predicate NoOccurrenceFrom(text: string, m: Obj, from: nat, syntax: KeySyntax) {
    forall i: nat, k :: from <= i < |text| && k in Keys(m) ==> !MatchesAt(text, i, k, syntax)
  }

  /** No key of `m` occurs anywhere in the text. */
  ghost predicate NoOccurrence(text: string, m: Obj, syntax: KeySyntax) {
    NoOccurrenceFrom(text, m, 0, syntax)
  }

  /** Where no key matches, the scan keeps every character. */
  lemma {:induction false} ScanNoOccurrence(text: string, m: Obj, i: nat, syntax: KeySyntax)
    requires i <= |text| && NoEmptyAlternative(KeyList(m)) && NoOccurrenceFrom(text, m, i, syntax)
    ensures HitCount(Scan(text, KeyList(m), i, syntax)) == 0
    decreases |text| - i
  {
    if i < |text| {
      var keys := KeyList(m);
      forall k | k in keys ensures !MatchesAt(text, i, k, syntax) {
        var j :| 0 <= j < |keys| && keys[j] == k;
        assert m[j].0 in Keys(m);
      }
      KeptStep(text, keys, i, text[i], syntax);
      var rest := Scan(text, keys, i + 1, syntax);
      assert ([Kept(text[i])] + rest)[1..] == rest;
      ScanNoOccurrence(text, m, i + 1, syntax);
    }
  }

  /**
   * The two renderings read the text the same way, whichever way the keys
   * are read: for the one leftmost, first-key-wins reading of the text,
   * the plain output puts each hit's replacement in its place and the
   * highlighted output puts the same replacement wrapped in the highlight
   * span; everything outside the hits is kept. When no key matches
   * anywhere, both give the text back.
   */
  lemma SubstitutionsAgree(text: string, m: Obj, ps: seq<Piece>, syntax: KeySyntax)
    requires NoEmptyAlternative(KeyList(m))
    requires ParsesFrom(text, KeyList(m), 0, ps, syntax)
    ensures Substitute(text, m, syntax, "", "") == Render(ps, m, "", "")
    ensures Substitute(text, m, syntax, HighlightOpen, HighlightClose) == Render(ps, m, HighlightOpen, HighlightClose)
    ensures |Substitute(text, m, syntax, HighlightOpen, HighlightClose)| ==
            |Substitute(text, m, syntax, "", "")| + HitCount(ps) * (|HighlightOpen| + |HighlightClose|)
    ensures NoOccurrence(text, m, syntax) ==>
            Substitute(text, m, syntax, "", "") == text && Substitute(text, m, syntax, HighlightOpen, HighlightClose) == text
  {
    ParseIsScan(text, KeyList(m), 0, ps, syntax);
    RenderLength(ps, m, HighlightOpen, HighlightClose);
    if NoOccurrence(text, m, syntax) {
      ScanNoOccurrence(text, m, 0, syntax);
      ScanSource(text, KeyList(m), 0, syntax);
      assert text[0..] == text;
      RenderNoHits(ps, m, "", "");
      RenderNoHits(ps, m, HighlightOpen, HighlightClose);
    }
  }

  /** `SubstitutionsAgree` for `replaceAll` and `replaceAllWithHighlight` with the keys read literally. */
  lemma RenderingsAgree(text: string, m: Obj, ps: seq<Piece>)
    requires NoEmptyAlternative(KeyList(m))
    requires ParsesFrom(text, KeyList(m), 0, ps, Literal)
    ensures ReplaceAll(text, m) == Render(ps, m, "", "")
    ensures ReplaceAllWithHighlight(text, m) == Render(ps, m, HighlightOpen, HighlightClose)
    ensures |ReplaceAllWithHighlight(text, m)| == |ReplaceAll(text, m)| + HitCount(ps) * (|HighlightOpen| + |HighlightClose|)
    ensures NoOccurrence(text, m, Literal) ==> ReplaceAll(text, m) == text && ReplaceAllWithHighlight(text, m) == text
  {
    SubstitutionsAgree(text, m, ps, Literal);
  }

  /** Read literally, every hit of a reading is a key of the alternation, matched ignoring case. */
  lemma {:induction false} ParsedHitsAgree(text: string, keys: seq<string>, i: nat, ps: seq<Piece>)
    requires ParsesFrom(text, keys, i, ps, Literal)
    ensures forall p :: p in ps && p.Hit? ==> p.key in keys && |p.span| == |p.key| && Lower(p.span) == Lower(p.key)
    decreases |ps|
  {
    if ps != [] {
      var n := |PieceSource(ps[0])|;
      ParsedHitsAgree(text, keys, i + n, ps[1..]);
      if ps[0].Hit? {
        var j :| 0 <= j < |keys| && keys[j] == ps[0].key && forall j' :: 0 <= j' < j ==> !MatchesAt(text, i, keys[j'], Literal);
        SourceAtSlice(text, i, ps[0].span);
        LiteralMatch(text, i, ps[0].key);
      }
      forall p | p in ps && p.Hit? ensures p.key in keys && |p.span| == |p.key| && Lower(p.span) == Lower(p.key) {
        if p != ps[0] {
          assert p in ps[1..];
        }
      }
    }
  }

  /**
   * When every key is lower-case, each hit of the literal reading is
   * replaced by the value of the key that matched it, never by "undefined".
   */
  lemma HitsUseTheirValues(text: string, m: Obj, ps: seq<Piece>)
    requires forall k :: k in Keys(m) ==> IsLower(k)
    requires ParsesFrom(text, KeyList(m), 0, ps, Literal)
    ensures forall p :: p in ps && p.Hit? ==> p.key in Keys(m) && Replacement(m, p.span) == Lookup(m, p.key).value
  {
    ParsedHitsAgree(text, KeyList(m), 0, ps);
    forall p | p in ps && p.Hit? ensures p.key in Keys(m) && Replacement(m, p.span) == Lookup(m, p.key).value {
      var j :| 0 <= j < |KeyList(m)| && KeyList(m)[j] == p.key;
      assert m[j].0 == p.key;
      assert p.key in Keys(m);
      LowerOfLower(p.key);
    }
  }
}

=== FILE: text.dfy ===
/**
 * ASCII stand-ins for the JavaScript string operations the translator
 * uses: `toLowerCase`, `toUpperCase`, `includes`, `charAt`/`slice` and the
 * string-pattern form of `replace`.
 */
module Text {

  /** `\w` in a JavaScript regular expression. */
  predicate IsWordChar(c: char) {
    ('a' <= c <= 'z') || ('A' <= c <= 'Z') || ('0' <= c <= '9') || c == '_'
  }

  predicate IsUpperChar(c: char) {
    'A' <= c <= 'Z'
  }

  predicate IsLowerChar(c: char) {
    'a' <= c <= 'z'
  }

  function LowerChar(c: char): char {
    if IsUpperChar(c) then (c as int + 32) as char else c
  }

  function UpperChar(c: char): char {
    if IsLowerChar(c) then (c as int - 32) as char else c
  }

  /** `s.toLowerCase()`: each character lower-cased in place. */
  function Lower(s: string): (r: string)
    ensures |r| == |s|
    ensures forall i :: 0 <= i < |s| ==> r[i] == LowerChar(s[i])
  {
    seq(|s|, i requires 0 <= i < |s| => LowerChar(s[i]))
  }

  /** The string has no upper-case letter, so lower-casing leaves it alone. */
  predicate IsLower(s: string) {
    forall i :: 0 <= i < |s| ==> !IsUpperChar(s[i])
  }

  /** `k` occurs in `s` starting at index `i`. */
  predicate OccursAt(s: string, i: int, k: string) {
    0 <= i && i + |k| <= |s| && s[i..i + |k|] == k
  }

  /** `s.includes(k)`: a scan over the start positions of `s`. */
  function Includes(s: string, k: string): (b: bool)
    ensures b <==> exists i :: OccursAt(s, i, k)
    decreases |s|
  {
    if |k| > |s| then false
    else if s[..|k|] == k then assert OccursAt(s, 0, k); true
    else
      var b := Includes(s[1..], k);
      assert forall i :: OccursAt(s[1..], i, k) ==> OccursAt(s, i + 1, k);
      assert forall i :: OccursAt(s, i, k) && i != 0 ==> OccursAt(s[1..], i - 1, k);
      b
  }

  /** `v.charAt(0).toUpperCase() + v.slice(1)`: only the first letter may change, and only in case. */
  function Capitalize(v: string): (r: string)
    ensures |r| == |v|
    ensures Lower(r) == Lower(v)
    ensures |v| > 0 ==> !IsLowerChar(r[0]) && r[1..] == v[1..]
  {
    if v == [] then [] else [UpperChar(v[0])] + v[1..]
  }

  /** `s.replace(a, b)` with one-character string arguments: the first `a`, if any, becomes `b`. */
  function ReplaceFirst(s: string, a: char, b: char): (r: string)
    ensures |r| == |s|
    ensures a !in s ==> r == s
    ensures forall i :: 0 <= i < |s| && s[i] != a ==> r[i] == s[i]
  {
    if s == [] then []
    else if s[0] == a then [b] + s[1..]
    else [s[0]] + ReplaceFirst(s[1..], a, b)
  }

  lemma LowerIsLower(s: string)
    ensures IsLower(Lower(s))
  {
  }

  lemma LowerOfLower(s: string)
    requires IsLower(s)
    ensures Lower(s) == s
  {
  }

  /** Every piece of a lower-cased text is itself lower-case. */
  lemma InfixOfLowerIsLower(s: string, i: int, k: string)
    requires OccursAt(Lower(s), i, k)
    ensures IsLower(k)
  {
    forall j | 0 <= j < |k|
      ensures !IsUpperChar(k[j])
    {
      assert k[j] == Lower(s)[i + j];
    }
  }

  /** Replacing the first `a` of `x + [a] + y`, where `x` has no `a`, touches exactly that character. */
  lemma {:induction false} ReplaceFirstSplit(x: string, a: char, y: string, b: char)
    requires a !in x
    ensures ReplaceFirst(x + [a] + y, a, b) == x + [b] + y
  {
    if x != [] {
      assert (x + [a] + y)[1..] == x[1..] + [a] + y;
      ReplaceFirstSplit(x[1..], a, y, b);
    }
  }
}

=== FILE: timepattern.dfy ===
/**
 * Clock times: the two time patterns of the translator
 * (`([1-9]|1[012]):[0-5][0-9]` towards British and
 * `([1-9]|1[012])\.([0-5][0-9])` towards American), their unanchored global
 * match, and the rewrite of the separator.
 */
module TimePattern {
  import opened Wrappers
  import opened Text

  datatype Direction = ToBritish | ToAmerican

  /** The separator the pattern of a direction looks for: American ':' when translating to British, British '.' otherwise. */
  function Separator(dir: Direction): char {
    if dir == ToBritish then ':' else '.'
  }

  /** The separator the rewrite puts in its place. */
  function TargetSeparator(dir: Direction): char {
    if dir == ToBritish then '.' else ':'
  }

  predicate IsDigit(c: char) {
    '0' <= c <= '9'
  }

  function Digit(d: nat): char
    requires d < 10
  {
    ('0' as int + d) as char
  }

  /** An hour of 1 to 12 as written: one digit, or "1" and a second digit. */
  function HourText(h: nat): string
    requires 1 <= h <= 12
  {
    if h < 10 then [Digit(h)] else ['1', Digit(h - 10)]
  }

  /** The clock time `h` `sep` `m`, minutes always written with two digits. */
  function Clock(h: nat, m: nat, sep: char): string
    requires 1 <= h <= 12 && m < 60
  {
    HourText(h) + [sep] + [Digit(m / 10), Digit(m % 10)]
  }

  /** A clock time holds its separator. */
  lemma ClockHoldsSeparator(h: nat, m: nat, sep: char)
    requires 1 <= h <= 12 && m < 60
    ensures sep in Clock(h, m, sep)
  {
    assert Clock(h, m, sep)[|HourText(h)|] == sep;
  }

  ghost predicate IsClock(t: string, sep: char) {
    exists h: nat, m: nat :: 1 <= h <= 12 && m < 60 && t == Clock(h, m, sep)
  }

  /**
   * Length of the match attempted at `p`: the alternative `[1-9]` is
   * tried before `1[012]`, so "10:30" is matched by the second one only
   * after the first fails at the '0'.
   */
  function MatchLength(s: string, p: nat, sep: char): (n: Option<nat>)
    requires p <= |s|
    ensures n.Some? ==> n.value in {4, 5} && p + n.value <= |s|
  {
    if p + 4 <= |s| && '1' <= s[p] <= '9' && s[p + 1] == sep && '0' <= s[p + 2] <= '5' && IsDigit(s[p + 3]) then
      Some(4)
    else if p + 5 <= |s| && s[p] == '1' && '0' <= s[p + 1] <= '2' && s[p + 2] == sep
            && '0' <= s[p + 3] <= '5' && IsDigit(s[p + 4]) then
      Some(5)
    else None
  }

  /** What the pattern matches is a clock time with hour 1 to 12 and minutes 00 to 59. */
  lemma MatchIsClock(s: string, p: nat, sep: char)
    requires p <= |s|
    requires MatchLength(s, p, sep).Some?
    ensures IsClock(s[p..p + MatchLength(s, p, sep).value], sep)
  {
    var n := MatchLength(s, p, sep).value;
    var t := s[p..p + n];
    if n == 4 {
      var h := s[p] as int - '0' as int;
      var m := (s[p + 2] as int - '0' as int) * 10 + (s[p + 3] as int - '0' as int);
      assert t == Clock(h, m, sep);
    } else {
      var h := 10 + (s[p + 1] as int - '0' as int);
      var m := (s[p + 3] as int - '0' as int) * 10 + (s[p + 4] as int - '0' as int);
      assert t == Clock(h, m, sep);
    }
  }

  /** Every clock time is matched whole by the pattern of its separator. */
  lemma ClockIsMatched(h: nat, m: nat, sep: char)
    requires 1 <= h <= 12 && m < 60
    requires !IsDigit(sep)
    ensures MatchLength(Clock(h, m, sep), 0, sep) == Some(|Clock(h, m, sep)|)
  {
  }

  /**
   * The global match from `p` on, as `text.match(timeRegex)` returns it:
   * unanchored, so it may start inside a longer number.
   */
  function TimesFrom(s: string, p: nat, sep: char): (ts: seq<string>)
    requires p <= |s|
    ensures forall t :: t in ts ==> IsClock(t, sep) && exists i :: p <= i && OccursAt(s, i, t)
    decreases |s| - p
  {
    if p == |s| then []
    else match MatchLength(s, p, sep)
      case None => TimesFrom(s, p + 1, sep)
      case Some(n) =>
        MatchIsClock(s, p, sep);
        assert OccursAt(s, p, s[p..p + n]);
        [s[p..p + n]] + TimesFrom(s, p + n, sep)
  }

  function Times(s: string, sep: char): (ts: seq<string>)
    ensures forall t :: t in ts ==> IsClock(t, sep) && Includes(s, t)
  {
    TimesFrom(s, 0, sep)
  }

  /** Every character of a match is a digit or the separator. */
  lemma MatchIsClockChars(s: string, p: nat, sep: char, k: nat)
    requires p <= |s| && MatchLength(s, p, sep).Some? && p <= k < p + MatchLength(s, p, sep).value
    ensures IsDigit(s[k]) || s[k] == sep
  {
  }

  /**
   * A scan started at or before a position not preceded by a digit or the
   * separator reaches it: no match can run across another character, so a
   * match at that position is one of the times.
   */
  lemma {:induction false} TimesFromReach(s: string, p: nat, i: nat, sep: char)
    requires p <= i <= |s| && MatchLength(s, i, sep).Some?
    requires i == 0 || (!IsDigit(s[i - 1]) && s[i - 1] != sep)
    ensures s[i..i + MatchLength(s, i, sep).value] in TimesFrom(s, p, sep)
    decreases i - p
  {
    if p == i {
      TimesFromStep(s, i, sep);
    } else {
      TimesFromStep(s, p, sep);
      match MatchLength(s, p, sep)
      case None =>
        TimesFromReach(s, p + 1, i, sep);
      case Some(n) =>
        MatchStopsAtBoundary(s, p, i, sep);
        TimesFromReach(s, p + n, i, sep);
    }
  }

  /** A match started before a position not preceded by a digit or the separator ends at or before it. */
  lemma MatchStopsAtBoundary(s: string, p: nat, i: nat, sep: char)
    requires p < i <= |s| && MatchLength(s, p, sep).Some?
    requires !IsDigit(s[i - 1]) && s[i - 1] != sep
    ensures p + MatchLength(s, p, sep).value <= i
  {
    if i < p + MatchLength(s, p, sep).value {
      MatchIsClockChars(s, p, sep, i - 1);
    }
  }

  /** One step of the global match: past a failed attempt, or after a match. */
  lemma TimesFromStep(s: string, p: nat, sep: char)
    requires p < |s|
    ensures MatchLength(s, p, sep).None? ==> TimesFrom(s, p, sep) == TimesFrom(s, p + 1, sep)
    ensures MatchLength(s, p, sep).Some? ==>
      var n := MatchLength(s, p, sep).value;
      TimesFrom(s, p, sep) == [s[p..p + n]] + TimesFrom(s, p + n, sep)
  {
  }

  /** A time at a position not preceded by a digit or the separator is found. */
  lemma TimeAtBoundary(s: string, i: nat, sep: char)
    requires i <= |s| && MatchLength(s, i, sep).Some?
    requires i == 0 || (!IsDigit(s[i - 1]) && s[i - 1] != sep)
    ensures s[i..i + MatchLength(s, i, sep).value] in Times(s, sep)
  {
    TimesFromReach(s, 0, i, sep);
  }

  /** A clock time in the text, not preceded by a digit or the separator, is found whole. */
  lemma ClockFound(s: string, i: nat, h: nat, m: nat, sep: char)
    requires 1 <= h <= 12 && m < 60 && !IsDigit(sep)
    requires OccursAt(s, i, Clock(h, m, sep))
    requires i == 0 || (!IsDigit(s[i - 1]) && s[i - 1] != sep)
    ensures Clock(h, m, sep) in Times(s, sep)
  {
    ClockMatchedInText(s, i, h, m, sep);
    TimeAtBoundary(s, i, sep);
  }

  /** Where the text holds a clock time, the pattern matches it whole. */
  lemma ClockMatchedInText(s: string, i: nat, h: nat, m: nat, sep: char)
    requires 1 <= h <= 12 && m < 60 && !IsDigit(sep)
    requires OccursAt(s, i, Clock(h, m, sep))
    ensures i <= |s| && MatchLength(s, i, sep) == Some(|Clock(h, m, sep)|)
    ensures s[i..i + |Clock(h, m, sep)|] == Clock(h, m, sep)
  {
    var c := Clock(h, m, sep);
    forall k | 0 <= k < |c| ensures s[i + k] == c[k] {
      assert s[i..i + |c|][k] == s[i + k];
    }
    var n := |HourText(h)|;
    assert c[n] == sep && c[n + 1] == Digit(m / 10) && c[n + 2] == Digit(m % 10);
    if h < 10 {
      assert c[0] == Digit(h);
    } else {
      assert c[0] == '1' && c[1] == Digit(h - 10);
    }
  }

  /** Out-of-range hours are not rejected: "13:30" yields "3:30", and "0:45" yields nothing. */
  lemma UnanchoredExamples()
    ensures Times("13:30", ':') == ["3:30"]
    ensures Times("0:45", ':') == []
    ensures Times("at 10.05", '.') == ["10.05"]
  {
    var a := "13:30";
    assert MatchLength(a, 0, ':').None?;
    assert MatchLength(a, 1, ':') == Some(4) && a[1..5] == "3:30";
    assert TimesFrom(a, 5, ':') == [];
    assert TimesFrom("0:45", 0, ':') == [];
    var b := "at 10.05";
    assert MatchLength(b, 3, '.') == Some(5) && b[3..8] == "10.05";
    assert TimesFrom(b, 8, '.') == [];
    assert TimesFrom(b, 3, '.') == ["10.05"];
  }

  /**
   * `time.replace(":", ".")` towards British, `time.replace(".", ":")`
   * towards American: the first separator is swapped, nothing else moves.
   */
  function Rewrite(t: string, dir: Direction): (r: string)
    ensures |r| == |t|
    ensures Separator(dir) !in t ==> r == t
    ensures forall k :: 0 <= k < |t| && t[k] != Separator(dir) ==> r[k] == t[k]
  {
    ReplaceFirst(t, Separator(dir), TargetSeparator(dir))
  }

  /** A clock time in one dialect is rewritten into the same clock time in the other. */
  lemma RewriteClock(h: nat, m: nat, dir: Direction)
    requires 1 <= h <= 12 && m < 60
    ensures Rewrite(Clock(h, m, Separator(dir)), dir) == Clock(h, m, TargetSeparator(dir))
  {
    ReplaceFirstSplit(HourText(h), Separator(dir), [Digit(m / 10), Digit(m % 10)], TargetSeparator(dir));
  }

  /** Rewriting a matched time to British and back restores it. */
  lemma RewriteRoundTrip(t: string)
    requires IsClock(t, ':')
    ensures IsClock(Rewrite(t, ToBritish), '.')
    ensures Rewrite(Rewrite(t, ToBritish), ToAmerican) == t
  {
    var h: nat, m: nat :| 1 <= h <= 12 && m < 60 && t == Clock(h, m, ':');
    RewriteClock(h, m, ToBritish);
    RewriteClock(h, m, ToAmerican);
  }
}

=== FILE: tokenizer.dfy ===
/**
 * The word tokenizer of the match finder: the global match of
 * `(\w+([-'])(\w+)?['-]?(\w+))|\w+` over the lower-cased text, written out
 * as the backtracking the regular expression performs.
 */
module Tokenizer {
  import opened Wrappers
  import opened Text

  /** `[-']`: the characters that may join words inside one token. */
  predicate IsJoiner(c: char) {
    c == '-' || c == '\''
  }

  predicate IsTokenChar(c: char) {
    IsWordChar(c) || IsJoiner(c)
  }

  /**
   * The strings the regular expression matches in full: word characters
   * and at most two joiners, beginning and ending with a word character.
   */
  predicate IsToken(t: string) {
    && |t| > 0 && IsWordChar(t[0]) && IsWordChar(t[|t| - 1])
    && (forall i :: 0 <= i < |t| ==> IsTokenChar(t[i]))
    && !(exists a, b, c :: 0 <= a < b < c < |t| && IsJoiner(t[a]) && IsJoiner(t[b]) && IsJoiner(t[c]))
  }

  /** `\w+` at `i`, taken greedily: the end of the longest run of word characters. */
  function RunEnd(s: string, i: nat): (e: nat)
    requires i <= |s|
    ensures i <= e <= |s|
    ensures forall j :: i <= j < e ==> IsWordChar(s[j])
    ensures e == |s| || !IsWordChar(s[e])
    decreases |s| - i
  {
    if i < |s| && IsWordChar(s[i]) then RunEnd(s, i + 1) else i
  }

  /**
   * Where the match attempted at `p` ends, or None when it fails there.
   * The first alternative needs a joiner right after the leading run;
   * `(\w+)?` is tried at full length, then shorter, then skipped, and
   * `['-]?` is tried before being left out. When the first alternative
   * fails the second, `\w+`, takes the leading run.
   */
  function MatchEnd(s: string, p: nat): (e: Option<nat>)
    requires p <= |s|
    ensures e.Some? <==> p < |s| && IsWordChar(s[p])
    ensures e.Some? ==> p < e.value <= |s|
  {
    var e1 := RunEnd(s, p);
    if e1 == p then None
    else if e1 < |s| && IsJoiner(s[e1]) then
      var q := e1 + 1;
      var e2 := RunEnd(s, q);
      if e2 > q then
        if e2 < |s| && IsJoiner(s[e2]) && RunEnd(s, e2 + 1) > e2 + 1 then Some(RunEnd(s, e2 + 1))
        else Some(e2)
      else if q < |s| && IsJoiner(s[q]) && RunEnd(s, q + 1) > q + 1 then Some(RunEnd(s, q + 1))
      else Some(e1)
    else Some(e1)
  }

  lemma NotTokenAt(s: string, p: nat, e: nat, k: nat)
    requires p <= k < e <= |s|
    requires !IsTokenChar(s[k]) || (k == e - 1 && !IsWordChar(s[k]))
    ensures !IsToken(s[p..e])
  {
    assert s[p..e][k - p] == s[k];
  }

  lemma NotTokenThreeJoiners(s: string, p: nat, e: nat, a: nat, b: nat, c: nat)
    requires p <= a < b < c < e <= |s|
    requires IsJoiner(s[a]) && IsJoiner(s[b]) && IsJoiner(s[c])
    ensures !IsToken(s[p..e])
  {
    var t := s[p..e];
    assert t[a - p] == s[a] && t[b - p] == s[b] && t[c - p] == s[c];
  }

  /**
   * A text beginning and ending with a word character, with joiners at `x`
   * and `j` (possibly the same place) and word characters everywhere else,
   * is a token.
   */
  lemma TokenFromParts(s: string, p: nat, z: nat, x: nat, j: nat)
    requires p < x <= j < z <= |s|
    requires IsJoiner(s[x]) && IsJoiner(s[j]) && IsWordChar(s[p]) && IsWordChar(s[z - 1])
    requires forall i :: p <= i < z && i != x && i != j ==> IsWordChar(s[i])
    ensures IsToken(s[p..z])
  {
    var t := s[p..z];
    forall i | 0 <= i < |t| ensures IsTokenChar(t[i]) {
      assert t[i] == s[p + i];
    }
    forall a, b, c | 0 <= a < b < c < |t|
      ensures !(IsJoiner(t[a]) && IsJoiner(t[b]) && IsJoiner(t[c]))
    {
      assert t[a] == s[p + a] && t[b] == s[p + b] && t[c] == s[p + c];
    }
  }

  /** A non-empty run of word characters is a token. */
  lemma WordIsToken(s: string, p: nat, z: nat)
    requires p < z <= |s|
    requires forall i :: p <= i < z ==> IsWordChar(s[i])
    ensures IsToken(s[p..z])
  {
    var t := s[p..z];
    assert forall i :: 0 <= i < |t| ==> t[i] == s[p + i];
  }

  /** `s[p..e]` is a token, and no longer text starting at `p` is one. */
  ghost predicate LongestTokenAt(s: string, p: nat, e: nat) {
    && p < e <= |s|
    && IsToken(s[p..e])
    && forall e' :: e < e' <= |s| ==> !IsToken(s[p..e'])
  }

  /**
   * The match at `p` is a token, and the longest one: no longer text
   * starting at `p` has the token shape.
   */
  lemma MatchEndIsLongestToken(s: string, p: nat)
    requires p <= |s|
    ensures MatchEnd(s, p).Some? ==> IsToken(s[p..MatchEnd(s, p).value])
    ensures MatchEnd(s, p).Some? ==> forall e' :: MatchEnd(s, p).value < e' <= |s| ==> !IsToken(s[p..e'])
  {
    MatchEndLongest(s, p);
  }

  /** `MatchEndIsLongestToken`, branch by branch of `MatchEnd`. */
  lemma MatchEndLongest(s: string, p: nat)
    requires p <= |s|
    ensures MatchEnd(s, p).Some? ==> LongestTokenAt(s, p, MatchEnd(s, p).value)
  {
    var e1 := RunEnd(s, p);
    if e1 == p {
    } else if e1 < |s| && IsJoiner(s[e1]) {
      var q := e1 + 1;
      var e2 := RunEnd(s, q);
      if e2 > q {
        if e2 < |s| && IsJoiner(s[e2]) && RunEnd(s, e2 + 1) > e2 + 1 {
          LongestWithTwoJoiners(s, p, e1, e2, RunEnd(s, e2 + 1));
        } else {
          LongestWithOneJoiner(s, p, e1, e2);
        }
      } else if q < |s| && IsJoiner(s[q]) && RunEnd(s, q + 1) > q + 1 {
        LongestWithDoubledJoiner(s, p, e1, RunEnd(s, q + 1));
      } else {
        LongestBeforeLoneJoiner(s, p, e1);
      }
    } else {
      LongestPlainRun(s, p, e1);
    }
  }

  /** Run, joiner, run, joiner, run: the match takes all five parts. */
  lemma LongestWithTwoJoiners(s: string, p: nat, e1: nat, e2: nat, e: nat)
    requires p <= |s| && p < e1 == RunEnd(s, p) && e1 < |s| && IsJoiner(s[e1])
    requires e1 + 1 < e2 == RunEnd(s, e1 + 1) && e2 < |s| && IsJoiner(s[e2])
    requires e2 + 1 < e == RunEnd(s, e2 + 1)
    ensures MatchEnd(s, p) == Some(e) && LongestTokenAt(s, p, e)
  {
    TokenFromParts(s, p, e, e1, e2);
    forall e' | e < e' <= |s| ensures !IsToken(s[p..e']) {
      if !IsJoiner(s[e]) || e' == e + 1 {
        NotTokenAt(s, p, e', e);
      } else {
        NotTokenThreeJoiners(s, p, e', e1, e2, e);
      }
    }
  }

  /** Run, joiner, run, and no joined run after: the match ends with the second run. */
  lemma LongestWithOneJoiner(s: string, p: nat, e1: nat, e2: nat)
    requires p <= |s| && p < e1 == RunEnd(s, p) && e1 < |s| && IsJoiner(s[e1])
    requires e1 + 1 < e2 == RunEnd(s, e1 + 1)
    requires !(e2 < |s| && IsJoiner(s[e2]) && RunEnd(s, e2 + 1) > e2 + 1)
    ensures MatchEnd(s, p) == Some(e2) && LongestTokenAt(s, p, e2)
  {
    TokenFromParts(s, p, e2, e1, e1);
    forall e' | e2 < e' <= |s| ensures !IsToken(s[p..e']) {
      if !IsJoiner(s[e2]) || e' == e2 + 1 {
        NotTokenAt(s, p, e', e2);
      } else if !IsJoiner(s[e2 + 1]) || e' == e2 + 2 {
        NotTokenAt(s, p, e', e2 + 1);
      } else {
        NotTokenThreeJoiners(s, p, e', e1, e2, e2 + 1);
      }
    }
  }

  /** Run, two joiners, run: `(\w+)?` is skipped and `['-]?` takes the second joiner. */
  lemma LongestWithDoubledJoiner(s: string, p: nat, e1: nat, e: nat)
    requires p <= |s| && p < e1 == RunEnd(s, p) && e1 + 1 < |s| && IsJoiner(s[e1]) && IsJoiner(s[e1 + 1])
    requires e1 + 2 < e == RunEnd(s, e1 + 2)
    ensures MatchEnd(s, p) == Some(e) && LongestTokenAt(s, p, e)
  {
    var q := e1 + 1;
    TokenFromParts(s, p, e, e1, q);
    forall e' | e < e' <= |s| ensures !IsToken(s[p..e']) {
      if !IsJoiner(s[e]) || e' == e + 1 {
        NotTokenAt(s, p, e', e);
      } else {
        NotTokenThreeJoiners(s, p, e', e1, q, e);
      }
    }
  }

  /** Run, joiner, and nothing the first alternative can finish with: the match is the run. */
  lemma LongestBeforeLoneJoiner(s: string, p: nat, e1: nat)
    requires p <= |s| && p < e1 == RunEnd(s, p) && e1 < |s| && IsJoiner(s[e1])
    requires RunEnd(s, e1 + 1) == e1 + 1
    requires !(e1 + 1 < |s| && IsJoiner(s[e1 + 1]) && RunEnd(s, e1 + 2) > e1 + 2)
    ensures MatchEnd(s, p) == Some(e1) && LongestTokenAt(s, p, e1)
  {
    var q := e1 + 1;
    WordIsToken(s, p, e1);
    forall e' | e1 < e' <= |s| ensures !IsToken(s[p..e']) {
      if e' == e1 + 1 {
        NotTokenAt(s, p, e', e1);
      } else if !IsJoiner(s[q]) || e' == q + 1 {
        NotTokenAt(s, p, e', q);
      } else if !IsJoiner(s[q + 1]) || e' == q + 2 {
        NotTokenAt(s, p, e', q + 1);
      } else {
        NotTokenThreeJoiners(s, p, e', e1, q, q + 1);
      }
    }
  }

  /** A run not followed by a joiner: the match is the run. */
  lemma LongestPlainRun(s: string, p: nat, e1: nat)
    requires p <= |s| && p < e1 == RunEnd(s, p)
    requires !(e1 < |s| && IsJoiner(s[e1]))
    ensures MatchEnd(s, p) == Some(e1) && LongestTokenAt(s, p, e1)
  {
    WordIsToken(s, p, e1);
    forall e' | e1 < e' <= |s| ensures !IsToken(s[p..e']) {
      NotTokenAt(s, p, e', e1);
    }
  }

  /**
   * The global match from `p` on: where the match fails the scan moves one
   * character on, and after a match it resumes where the match ended.
   */
  function TokensFrom(s: string, p: nat): (ts: seq<string>)
    requires p <= |s|
    ensures forall t :: t in ts ==> IsToken(t) && exists i :: p <= i && OccursAt(s, i, t)
    decreases |s| - p
  {
    if p == |s| then []
    else match MatchEnd(s, p)
      case None => TokensFrom(s, p + 1)
      case Some(e) =>
        MatchEndIsLongestToken(s, p);
        assert OccursAt(s, p, s[p..e]);
        [s[p..e]] + TokensFrom(s, e)
  }

  /** `text.match(re)`, with no match read as the empty list (what `?.forEach` does with `null`). */
  function Tokens(s: string): (ts: seq<string>)
    ensures forall t :: t in ts ==> IsToken(t) && Includes(s, t)
  {
    TokensFrom(s, 0)
  }

  /** Every character of a match is a word character or a joiner. */
  lemma MatchIsTokenChars(s: string, p: nat, k: nat)
    requires p <= |s| && MatchEnd(s, p).Some? && p <= k < MatchEnd(s, p).value
    ensures IsTokenChar(s[k])
  {
    MatchEndIsLongestToken(s, p);
    assert s[p..MatchEnd(s, p).value][k - p] == s[k];
  }

  /**
   * A scan started at or before a word boundary reaches it: no match can
   * run across a character that is neither a word character nor a joiner,
   * so the match attempted at the boundary is one of the tokens.
   */
  lemma {:induction false} TokensFromReach(s: string, p: nat, i: nat)
    requires p <= i < |s| && IsWordChar(s[i])
    requires i == 0 || !IsTokenChar(s[i - 1])
    ensures s[i..MatchEnd(s, i).value] in TokensFrom(s, p)
    decreases i - p
  {
    if p < i {
      match MatchEnd(s, p)
      case None =>
        TokensFromReach(s, p + 1, i);
      case Some(e) =>
        if i < e {
          MatchIsTokenChars(s, p, i - 1);
        }
        TokensFromReach(s, e, i);
    }
  }

  /** A word starting at a word boundary is found: the token the match takes there is among the tokens of the text. */
  lemma TokenAtBoundary(s: string, i: nat)
    requires i < |s| && IsWordChar(s[i])
    requires i == 0 || !IsTokenChar(s[i - 1])
    ensures s[i..MatchEnd(s, i).value] in Tokens(s)
  {
    TokensFromReach(s, 0, i);
  }

  /**
   * A token standing alone in the text, with neither a word character nor
   * a joiner on either side, is found whole: a hyphenated word inside a
   * sentence is one token.
   */
  lemma DelimitedTokenFound(s: string, i: nat, j: nat)
    requires i < j <= |s| && IsToken(s[i..j])
    requires i == 0 || !IsTokenChar(s[i - 1])
    requires j == |s| || !IsTokenChar(s[j])
    ensures MatchEnd(s, i) == Some(j)
    ensures s[i..j] in Tokens(s)
  {
    assert s[i..j][0] == s[i];
    MatchEndIsLongestToken(s, i);
    var e := MatchEnd(s, i).value;
    if e > j {
      MatchIsTokenChars(s, i, j);
    }
    TokenAtBoundary(s, i);
  }

  /** A hyphenated or apostrophe-joined word on its own is one token, not fragments. */
  lemma WholeTokenNotSplit(t: string)
    requires IsToken(t)
    ensures Tokens(t) == [t]
  {
    assert MatchEnd(t, 0).Some?;
    var e := MatchEnd(t, 0).value;
    assert e == |t| by {
      MatchEndIsLongestToken(t, 0);
      assert t[0..|t|] == t;
    }
    assert TokensFrom(t, e) == [];
    assert t[0..e] == t;
  }
}

=== FILE: translator.dfy ===
/**
 * `translate`, `toBritishEnglish` and `toAmericanEnglish`: the matches of
 * the four passes merged into one object, then substituted into the
 * original text twice, once plainly and once with every substitution
 * highlighted. With nothing to substitute the result is `null`.
 */
module Translation {
  import opened Wrappers
  import opened Text
  import opened JsObject
  import opened Tokenizer
  import opened TimePattern
  import opened Dictionaries
  import opened Matching
  import opened Substitution

  /**
   * The match object `translate` builds, with the word pass reading the
   * dictionary through `get`: the time matches spread over the term and
   * title matches.
   */
  function MatchesMapReading(lowerText: string, dict: Obj, titles: Obj, dir: Direction, get: string -> Option<string>): (r: Obj)
    ensures forall k :: k in Keys(r) ==> Includes(lowerText, k)
    ensures forall k :: Lookup(r, k) == (
              if k in Times(lowerText, Separator(dir)) then Some(Rewrite(k, dir))
              else if ' ' in k && Includes(lowerText, k) && k in Keys(dict) then Lookup(dict, k)
              else if k in Tokens(lowerText) && Truthy(get(k)) then get(k)
              else if Includes(lowerText, k) && k in Keys(titles) then Some(Capitalize(Lookup(titles, k).value))
              else None)
  {
    var terms := FindMatchesReading(lowerText, dict, titles, get);
    var times := FindTimeMatches(lowerText, dir);
    assert forall k :: k in Keys(times) ==> Lookup(times, k) == Some(Rewrite(k, dir));
    Spread(terms, times)
  }

  /**
   * The match object `translate` builds. On one key, a time beats a phrase,
   * which beats a word, which beats a title.
   */
  function MatchesMap(lowerText: string, dict: Obj, titles: Obj, dir: Direction): (r: Obj)
    ensures forall k :: k in Keys(r) ==> Includes(lowerText, k)
    ensures forall k :: Lookup(r, k) == (
              if k in Times(lowerText, Separator(dir)) then Some(Rewrite(k, dir))
              else if ' ' in k && Includes(lowerText, k) && k in Keys(dict) then Lookup(dict, k)
              else if k in Tokens(lowerText) && Truthy(Lookup(dict, k)) then Lookup(dict, k)
              else if Includes(lowerText, k) && k in Keys(titles) then Some(Capitalize(Lookup(titles, k).value))
              else None)
  {
    MatchesMapReading(lowerText, dict, titles, dir, OwnProperty(dict))
  }

  /** With both dictionaries empty, only times and looked-up tokens are matched. */
  lemma EmptyDictionariesLookup(lowerText: string, dir: Direction, get: string -> Option<string>, k: string)
    ensures Lookup(MatchesMapReading(lowerText, [], [], dir, get), k) ==
      if k in Times(lowerText, Separator(dir)) then Some(Rewrite(k, dir))
      else if k in Tokens(lowerText) && Truthy(get(k)) then get(k)
      else None
  {
    var none: Obj := [];
    assert Keys(none) == {};
  }

  /** Nothing in the text for any pass to find: no title, no word with a non-empty entry, no phrase, no time. */
  ghost predicate NothingToTranslate(lowerText: string, dict: Obj, titles: Obj, dir: Direction) {
    && (forall k :: k in Keys(titles) ==> !Includes(lowerText, k))
    && (forall w :: w in Tokens(lowerText) ==> !Truthy(Lookup(dict, w)))
    && (forall k :: k in Keys(dict) && ' ' in k ==> !Includes(lowerText, k))
    && Times(lowerText, Separator(dir)) == []
  }

  lemma EmptyMeansNothing(lowerText: string, dict: Obj, titles: Obj, dir: Direction)
    requires Keys(MatchesMap(lowerText, dict, titles, dir)) == {}
    ensures NothingToTranslate(lowerText, dict, titles, dir)
  {
    var m := MatchesMap(lowerText, dict, titles, dir);
    forall k | k in Keys(titles) ensures !Includes(lowerText, k) {
      assert Lookup(m, k).None?;
    }
    forall w | w in Tokens(lowerText) ensures !Truthy(Lookup(dict, w)) {
      assert Lookup(m, w).None?;
    }
    forall k | k in Keys(dict) && ' ' in k ensures !Includes(lowerText, k) {
      assert Lookup(m, k).None?;
    }
  }

  lemma NothingMeansEmpty(lowerText: string, dict: Obj, titles: Obj, dir: Direction)
    requires NothingToTranslate(lowerText, dict, titles, dir)
    ensures Keys(MatchesMap(lowerText, dict, titles, dir)) == {}
  {
    forall k ensures k !in Keys(MatchesMap(lowerText, dict, titles, dir)) {
      NothingLooksUp(lowerText, dict, titles, dir, k);
    }
  }

  /** With nothing to translate, no key is bound. */
  lemma NothingLooksUp(lowerText: string, dict: Obj, titles: Obj, dir: Direction, k: string)
    requires NothingToTranslate(lowerText, dict, titles, dir)
    ensures Lookup(MatchesMap(lowerText, dict, titles, dir), k).None?
  {
  }

  /** The match object is empty exactly when there is nothing to translate. */
  lemma EmptyExactlyWhenNothing(lowerText: string, dict: Obj, titles: Obj, dir: Direction)
    ensures Keys(MatchesMap(lowerText, dict, titles, dir)) == {} <==> NothingToTranslate(lowerText, dict, titles, dir)
  {
    var m := MatchesMap(lowerText, dict, titles, dir);
    if Keys(m) == {} {
      EmptyMeansNothing(lowerText, dict, titles, dir);
    }
    if NothingToTranslate(lowerText, dict, titles, dir) {
      NothingMeansEmpty(lowerText, dict, titles, dir);
    }
  }

  /** Every key of the match object occurs in the text it was found in; of a lower-cased text, every key is lower-case. */
  lemma MatchKeysLower(text: string, dict: Obj, titles: Obj, dir: Direction)
    ensures forall k :: k in Keys(MatchesMap(Lower(text), dict, titles, dir)) ==> Includes(Lower(text), k) && IsLower(k)
  {
    forall k | k in Keys(MatchesMap(Lower(text), dict, titles, dir)) ensures IsLower(k) {
      var i :| OccursAt(Lower(text), i, k);
      InfixOfLowerIsLower(text, i, k);
    }
  }

  /** A token holds neither separator, so it is never a clock time. */
  lemma TokenIsNoClock(w: string, sep: char)
    requires IsToken(w) && !IsTokenChar(sep)
    ensures !IsClock(w, sep)
  {
    forall h: nat, m: nat | 1 <= h <= 12 && m < 60 ensures w != Clock(h, m, sep) {
      ClockHoldsSeparator(h, m, sep);
    }
  }

  /**
   * A word of the text standing between word boundaries, with a truthy own
   * entry in the dictionary, is a key of the match object bound to that
   * entry, and `translate` does not return `null`.
   */
  lemma DictionaryWordTranslated(text: string, dict: Obj, titles: Obj, dir: Direction, i: nat, j: nat)
    requires NonEmptyKeys(titles)
    requires i < j <= |text| && IsToken(Lower(text)[i..j])
    requires i == 0 || !IsTokenChar(Lower(text)[i - 1])
    requires j == |text| || !IsTokenChar(Lower(text)[j])
    requires Truthy(Lookup(dict, Lower(text)[i..j]))
    ensures Lower(text)[i..j] in Keys(MatchesMap(Lower(text), dict, titles, dir))
    ensures Lookup(MatchesMap(Lower(text), dict, titles, dir), Lower(text)[i..j]) == Lookup(dict, Lower(text)[i..j])
    ensures Translate(text, dict, titles, dir).Some?
  {
    DelimitedTokenFound(Lower(text), i, j);
    TokenLookup(Lower(text), dict, titles, dir, Lower(text)[i..j]);
    SomethingToTranslate(text, dict, titles, dir, Lower(text)[i..j]);
  }

  /** A token of the text with a truthy entry is bound to that entry: it is neither a time nor a phrase. */
  lemma TokenLookup(lowerText: string, dict: Obj, titles: Obj, dir: Direction, w: string)
    requires w in Tokens(lowerText) && Truthy(Lookup(dict, w))
    ensures Lookup(MatchesMap(lowerText, dict, titles, dir), w) == Lookup(dict, w)
  {
    TokenIsNoClock(w, Separator(dir));
    WordsAndPhrasesDisjoint(lowerText, dict, w);
  }

  /** A token of the text with a truthy entry leaves something to translate. */
  lemma SomethingToTranslate(text: string, dict: Obj, titles: Obj, dir: Direction, w: string)
    requires NonEmptyKeys(titles)
    requires w in Tokens(Lower(text)) && Truthy(Lookup(dict, w))
    ensures Translate(text, dict, titles, dir).Some?
  {
    assert !NothingToTranslate(Lower(text), dict, titles, dir);
  }

  /**
   * A clock time in the text, not preceded by a digit or the separator of
   * the direction, is a key of the match object bound to its rewrite, and
   * `translate` does not return `null`.
   */
  lemma ClockTranslated(text: string, dict: Obj, titles: Obj, dir: Direction, i: nat, h: nat, m: nat)
    requires NonEmptyKeys(titles)
    requires 1 <= h <= 12 && m < 60
    requires OccursAt(Lower(text), i, Clock(h, m, Separator(dir)))
    requires i == 0 || (!IsDigit(Lower(text)[i - 1]) && Lower(text)[i - 1] != Separator(dir))
    ensures Clock(h, m, Separator(dir)) in Keys(MatchesMap(Lower(text), dict, titles, dir))
    ensures Lookup(MatchesMap(Lower(text), dict, titles, dir), Clock(h, m, Separator(dir))) == Some(Clock(h, m, TargetSeparator(dir)))
    ensures Translate(text, dict, titles, dir).Some?
  {
    ClockFound(Lower(text), i, h, m, Separator(dir));
    RewriteClock(h, m, dir);
  }

  /** No key of the match object is empty, given a title dictionary without an empty key. */
  lemma MatchKeysNonEmpty(lowerText: string, dict: Obj, titles: Obj, dir: Direction, get: string -> Option<string>)
    requires NonEmptyKeys(titles)
    ensures NoEmptyAlternative(KeyList(MatchesMapReading(lowerText, dict, titles, dir, get)))
  {
    var m := MatchesMapReading(lowerText, dict, titles, dir, get);
    forall j | 0 <= j < |KeyList(m)| ensures |KeyList(m)[j]| > 0 {
      var k := m[j].0;
      assert k in Keys(m);
      if k in Times(lowerText, Separator(dir)) {
        var h: nat, mm: nat :| 1 <= h <= 12 && mm < 60 && k == Clock(h, mm, Separator(dir));
      } else if k in Tokens(lowerText) {
      } else if ' ' in k {
      } else {
        assert k in Keys(titles);
      }
    }
  }

  /**
   * `translate`, with the word pass reading the dictionary through `get`
   * and the keys read as `syntax` in the substitution: `None` (the
   * source's `null`) when the match object is empty, otherwise the plain
   * and the highlighted translation. The title dictionary must not have an
   * empty key.
   */
  function TranslateReading(text: string, dict: Obj, titles: Obj, dir: Direction, get: string -> Option<string>, syntax: KeySyntax): (r: Option<(string, string)>)
    requires NonEmptyKeys(titles)
    ensures r.None? <==> Keys(MatchesMapReading(Lower(text), dict, titles, dir, get)) == {}
  {
    MatchKeysNonEmpty(Lower(text), dict, titles, dir, get);
    Outcome(text, MatchesMapReading(Lower(text), dict, titles, dir, get), syntax)
  }

  /**
   * The end of `translate` once the match object `m` is built: `None` when
   * it has no key, otherwise the plain and the highlighted substitution,
   * which render whichever leftmost, first-key-wins reading of the text
   * there is (there is exactly one) with and without the markers.
   */
  function Outcome(text: string, m: Obj, syntax: KeySyntax): (r: Option<(string, string)>)
    requires NoEmptyAlternative(KeyList(m))
    ensures r.None? <==> Keys(m) == {}
    ensures r.Some? ==> r.value.0 == Substitute(text, m, syntax, "", "")
    ensures r.Some? ==> r.value.1 == Substitute(text, m, syntax, HighlightOpen, HighlightClose)
    ensures r.Some? ==> forall ps :: ParsesFrom(text, KeyList(m), 0, ps, syntax) ==>
      r.value == (Render(ps, m, "", ""), Render(ps, m, HighlightOpen, HighlightClose))
  {
    if |m| == 0 then
      None
    else
      assert m[0].0 in Keys(m);
      ReadingIsScan(text, KeyList(m), syntax);
      Some((Substitute(text, m, syntax, "", ""), Substitute(text, m, syntax, HighlightOpen, HighlightClose)))
  }

  /** Every reading of the whole text is the scan. */
  lemma ReadingIsScan(text: string, keys: seq<string>, syntax: KeySyntax)
    requires NoEmptyAlternative(keys)
    ensures forall ps :: ParsesFrom(text, keys, 0, ps, syntax) ==> ps == Scan(text, keys, 0, syntax)
  {
    forall ps | ParsesFrom(text, keys, 0, ps, syntax) ensures ps == Scan(text, keys, 0, syntax) {
      ParseIsScan(text, keys, 0, ps, syntax);
    }
  }

  /** With matches found, the translation is the two substitutions of the match object. */
  lemma TranslateReadingSome(text: string, dict: Obj, titles: Obj, dir: Direction, get: string -> Option<string>, syntax: KeySyntax, m: Obj)
    requires NonEmptyKeys(titles)
    requires m == MatchesMapReading(Lower(text), dict, titles, dir, get) && |m| > 0
    ensures NoEmptyAlternative(KeyList(m))
    ensures TranslateReading(text, dict, titles, dir, get, syntax) ==
      Some((Substitute(text, m, syntax, "", ""), Substitute(text, m, syntax, HighlightOpen, HighlightClose)))
  {
    MatchKeysNonEmpty(Lower(text), dict, titles, dir, get);
  }

  /**
   * `translate`: `None` (the source's `null`) exactly when there is nothing
   * to translate; otherwise the plain and the highlighted translation
   * (`TranslationsAgree` says what they hold).
   */
  function Translate(text: string, dict: Obj, titles: Obj, dir: Direction): (r: Option<(string, string)>)
    requires NonEmptyKeys(titles)
    ensures r.None? <==> NothingToTranslate(Lower(text), dict, titles, dir)
  {
    EmptyExactlyWhenNothing(Lower(text), dict, titles, dir);
    TranslateReading(text, dict, titles, dir, OwnProperty(dict), Literal)
  }

  /**
   * What the two translations say: for the one leftmost, first-key-wins
   * reading of the text, the plain translation puts the value of the
   * matched key in place of each hit, the highlighted one puts the same
   * value inside the highlight markers, and the rest of the text is kept;
   * the highlighted translation is longer by one pair of markers per hit.
   */
  lemma TranslationsAgree(text: string, dict: Obj, titles: Obj, dir: Direction, ps: seq<Piece>)
    requires NonEmptyKeys(titles)
    requires Translate(text, dict, titles, dir).Some?
    requires ParsesFrom(text, KeyList(MatchesMap(Lower(text), dict, titles, dir)), 0, ps, Literal)
    ensures var m := MatchesMap(Lower(text), dict, titles, dir);
      && Translate(text, dict, titles, dir).value == (Render(ps, m, "", ""), Render(ps, m, HighlightOpen, HighlightClose))
      && (forall p :: p in ps && p.Hit? ==> p.key in Keys(m) && Replacement(m, p.span) == Lookup(m, p.key).value)
      && |Translate(text, dict, titles, dir).value.1| ==
         |Translate(text, dict, titles, dir).value.0| + HitCount(ps) * (|HighlightOpen| + |HighlightClose|)
  {
    var m := MatchesMap(Lower(text), dict, titles, dir);
    MatchKeysNonEmpty(Lower(text), dict, titles, dir, OwnProperty(dict));
    MatchKeysLower(text, dict, titles, dir);
    RenderingsAgree(text, m, ps);
    HitsUseTheirValues(text, m, ps);
  }

  /** `toBritishEnglish`. */
  function ToBritishEnglish(t: Translator, text: string): (r: Option<(string, string)>)
    requires NonEmptyKeys(t.titlesBritish)
    ensures r == Translate(text, t.dictBritish, t.titlesBritish, ToBritish)
    ensures r.None? <==> NothingToTranslate(Lower(text), t.dictBritish, t.titlesBritish, ToBritish)
  {
    Translate(text, t.dictBritish, t.titlesBritish, ToBritish)
  }

  /** `toAmericanEnglish`. */
  function ToAmericanEnglish(t: Translator, text: string): (r: Option<(string, string)>)
    requires NonEmptyKeys(t.titlesAmerican)
    ensures r == Translate(text, t.dictAmerican, t.titlesAmerican, ToAmerican)
    ensures r.None? <==> NothingToTranslate(Lower(text), t.dictAmerican, t.titlesAmerican, ToAmerican)
  {
    Translate(text, t.dictAmerican, t.titlesAmerican, ToAmerican)
  }
}

=== FILE: wrappers.dfy ===
/** The optional value the model uses where the JavaScript code yields `undefined` or `null`. */
module Wrappers {

  datatype Option<+T> = None | Some(value: T)
}
